=== FILE: README.md ===
# Traffic-violation evidence analysis, modelled in Dafny

This project models the decision logic of a citizen traffic-violation reporting system. Its
analysis endpoint takes a photo of a violation and asks three outside services about it:

- an image-forensics service (Sightengine) scores how likely the picture is to be fabricated;
- an ANPR workflow (Roboflow) reads the licence plate;
- a vision model (Gemini) flags five kinds of violation with confidences, offers its own plate
  reading and writes a comment.

The handler combines the answers into one analysis record. It holds an authenticity score, the
reconciled plate, the parsed flags, a validity score (how sure the system is that a violation
happened) and a priority score (where the report lands in the officers' queue). Each service
can be missing or failing; the handler then falls back to fixed defaults. The model represents
two refusals: a missing media locator and a media download that throws. A request body that is
not JSON also ends in an error response in the code; body decoding is outside the model.

The officers' dashboard then filters the queue by status and shows a badge per status. A small
helper joins backend paths onto a configured base URL.

Modules, one per file:

- `Json` (json.dfy): the untyped reply tree. Object members are kept in the order a `for ... in`
  loop visits them.
- `Text` (text.dfy): JavaScript's `\s` white space, `trim`, ASCII upper-casing and white-space
  removal.
- `Authenticity` (authenticity.dfy): the forensics step.
- `PlateReader` (plate_reader.dfy): the two-tier plate extraction from the ANPR reply. Tier 1 is
  the plate pattern searched in the serialised reply. Tier 2 is the depth-first search for a
  `text` field, followed by normalisation.
- `Classifier` (classifier.dfy): fence stripping, `looksLikePlate`, the three-rule plate
  reconciliation, the classifier step as a whole and its fallback record.
- `Scoring` (scoring.dfy): the weight table, the scoring loop as a method, and rounding to
  hundredths.
- `Analysis` (analysis.dfy): the request handler as an imperative method. It updates the
  authenticity, plate, flags, validity and priority step by step.
- `Dashboard` (dashboard.dfy): the status filter, the queue's priority order and the status badge.
- `ApiUrl` (api_url.dfy): base-URL joining.

Where the system's specification and the code disagree, the model follows the code:

- The specification says the returned plate is always a plausible-shaped string. The code's
  third reconciliation rule returns the vision model's normalised text however it is shaped.
  It does so when the ANPR step found nothing. `Classifier.Reconcile` states this rule.
- The specification says an implausible ANPR plate is discarded when the vision model found
  nothing. In the code no branch fires in that case, so the ANPR plate is kept.
  `Classifier.SilentClassifierKeepsAnpr` states this.
- The specification says the three scores are always in [0,1]. The code guarantees this only
  when the forensics probability and the reported confidences are themselves in [0,1].
  `Analysis.Analyze` states the bound under exactly those conditions.
- The specification describes the failure baseline, 0.2 times the authenticity score rounded to
  hundredths, as low but nonzero. In the code it rounds to 0 when the authenticity score is
  below 0.025. `Scoring.FallbackPriorityNonzero` states where it is nonzero.

## Model

| member | source | states |
|---|---|---|
| Authenticity.AiGenerated | src/app/api/analyze/route.ts:30 | a probability is read exactly when the reply's status is "success", its `type` is truthy and `type.ai_generated` is a number, and it is that number |
| Authenticity.AuthenticityScore | src/app/api/analyze/route.ts:20-44 | the score stays 1.0 unless the service replied; on success score + ai_generated = 1; a "failure" status gives 0.95; any other reply leaves the score at 1.0; a probability in [0,1] keeps the score in [0,1] |
| Text.RemoveSpaces | src/app/api/analyze/route.ts:79 | no white space survives, and the result is empty exactly when the input was all white space |
| Text.RemoveSpacesCounts | src/app/api/analyze/route.ts:79 | every character other than white space survives as often as it occurs in the input |
| Text.RemoveSpacesAppend | src/app/api/analyze/route.ts:79 | the removal works piece by piece: the result for a concatenation is the results for its parts, in order |
| Text.ToUpper | src/app/api/analyze/route.ts:83 | same length; each character is upper-cased position by position |
| Text.Trim | src/app/api/analyze/route.ts:164 | the result is a contiguous part of the input with only white space before and after it, and it neither starts nor ends with white space |
| Text.TrimIgnoresSurroundingSpace | src/app/api/analyze/route.ts:164 | white space around a payload never changes what `trim` returns |
| PlateReader.MatchLengthAt | src/app/api/analyze/route.ts:80 | the match found at a position has 8 to 10 characters and fits the pattern; none is found exactly when no match starts there |
| PlateReader.MatchLengthIsUnique | src/app/api/analyze/route.ts:80 | at most one split of the pattern matches at a position, so the backtracking order cannot change the match |
| PlateReader.SearchFrom | src/app/api/analyze/route.ts:80 | the match found is the leftmost one; none is found only when no position matches |
| PlateReader.PatternIsAlnum | src/app/api/analyze/route.ts:80 | text matched by the pattern holds only ASCII letters and digits |
| PlateReader.PrimaryPlate | src/app/api/analyze/route.ts:79-83 | a tier-1 plate exists exactly when the pattern matches somewhere in the reply with white space removed; it is the upper-cased leftmost match, 8 to 10 characters of A-Z and 0-9 |
| PlateReader.TextCandidates | src/app/api/analyze/route.ts:86-94 | reference pre-order list of the qualifying `text` fields; each is longer than five characters |
| PlateReader.FindText | src/app/api/analyze/route.ts:86-94 | `findText`: null for anything but an object or array; whatever it returns is longer than five characters |
| PlateReader.FindTextIsFirstCandidate | src/app/api/analyze/route.ts:86-94 | `findText` returns exactly the first qualifying `text` field in pre-order, key order among children, and null when there is none |
| PlateReader.KeepAlnum | src/app/api/analyze/route.ts:98 | only ASCII letters and digits remain; text made of them alone is left unchanged |
| PlateReader.KeepAlnumCounts | src/app/api/analyze/route.ts:98 | every ASCII letter and digit survives as often as it occurs in the input, and nothing else survives |
| PlateReader.KeepAlnumAppend | src/app/api/analyze/route.ts:98 | the filter works piece by piece, so the kept characters stay in their input order |
| PlateReader.NormalizePlate | src/app/api/analyze/route.ts:98 | the result holds only A-Z and 0-9; a single letter or digit comes out upper-cased and any other character is dropped |
| PlateReader.NormalizeAppend | src/app/api/analyze/route.ts:98 | normalisation works piece by piece; with the single-character case it is exactly the input's letters and digits, upper-cased, in order |
| PlateReader.NormalizeFixesExactlyPlateText | src/app/api/analyze/route.ts:98 | normalisation leaves a string unchanged exactly when it is already made of A-Z and 0-9; applying it twice equals applying it once |
| PlateReader.FallbackPlate | src/app/api/analyze/route.ts:95-102 | a tier-2 plate exists exactly when `findText` finds a text whose normalisation has 7 to 11 characters, and it is that normalisation |
| PlateReader.ReadPlate | src/app/api/analyze/route.ts:52-116 | a plate exists only after a successful reply; tier 1 wins when it finds one, tier 2 is used otherwise; every plate has 7 to 11 characters of A-Z and 0-9 |
| Classifier.RemoveAll | src/app/api/analyze/route.ts:164 | a global `replace` by the empty string: the result is never longer than the input (its behaviour is stated by the lemmas below) |
| Classifier.RemoveAllNoMatch | src/app/api/analyze/route.ts:164 | text holding no occurrence of the pattern is returned unchanged |
| Classifier.RemoveAllSplits | src/app/api/analyze/route.ts:164 | when no occurrence straddles the boundary of two texts, the removal of their concatenation is the concatenation of their removals |
| Classifier.RemoveAllTicks | src/app/api/analyze/route.ts:164 | the "```" pass turns a run of k backticks, followed by text without any, into k mod 3 backticks |
| Classifier.StripFences | src/app/api/analyze/route.ts:164 | the text handed to `JSON.parse`: both fence passes, then `trim` |
| Classifier.PlainReplyIsTrimmed | src/app/api/analyze/route.ts:164 | a reply without backticks is only trimmed |
| Classifier.RemoveAllSkipsPlainPrefix | src/app/api/analyze/route.ts:164 | text without backticks passes through the fence removal untouched |
| Classifier.FencedPayloadStripsToBare | src/app/api/analyze/route.ts:164 | any payload, backticks included, wrapped as white space, a "```json" fence in any letter case, white space, the payload, white space, "```" and white space reaches `JSON.parse` exactly as the bare payload does |
| Classifier.FencedReplyClassifiesAsBare | src/app/api/analyze/route.ts:161-165 | such a fenced reply and the bare payload lead to the same classification |
| Classifier.PlainFenceStripsToBare | src/app/api/analyze/route.ts:164 | any payload wrapped in a plain "```" fence, with white space around each fence and at least one white-space character after the opening one, reaches `JSON.parse` exactly as the bare payload does |
| Classifier.PlainFencedReplyClassifiesAsBare | src/app/api/analyze/route.ts:161-165 | such a plainly fenced reply and the bare payload lead to the same classification |
| Classifier.NoJsonFenceAfterPlainFence | src/app/api/analyze/route.ts:164 | the case-insensitive "```json" pass leaves a plain "```" followed by white space untouched |
| Classifier.LooksLikePlate | src/app/api/analyze/route.ts:170 | `looksLikePlate` on a string: 7 to 11 characters containing two upper-case ASCII letters followed by a digit, case-sensitively |
| Classifier.MatchLooksLikePlate | src/app/api/analyze/route.ts:170 | any upper-cased text matched by the plate pattern passes `looksLikePlate` |
| Classifier.PrimaryPlateLooksLikePlate | src/app/api/analyze/route.ts:80 | every tier-1 plate passes `looksLikePlate`, so reconciliation always keeps it |
| Classifier.Reconcile | src/app/api/analyze/route.ts:170-181 | a plausible ANPR plate is kept; otherwise a plausible vision plate is used, normalised; otherwise the vision text is used only when the ANPR plate is empty; a non-empty ANPR plate is never replaced by an implausible one; the result comes from exactly one source; a truthy non-string vision plate throws when the ANPR plate is implausible, and only then |
| Classifier.ReconciledPlateIsNormalized | src/app/api/analyze/route.ts:172-181 | with a normalised ANPR plate, the chosen plate is normalised whichever rule chose it |
| Classifier.SilentClassifierKeepsAnpr | src/app/api/analyze/route.ts:172-181 | when the vision model gives no plate, the ANPR plate is kept, plausible or not |
| Classifier.PlausibleAnprWinsExample | src/app/api/analyze/route.ts:172-176 | the ANPR plate "DL8CX9291" wins over the vision plate "XX99YY" |
| Classifier.LowercaseVisionPlateExample | src/app/api/analyze/route.ts:170-181 | with no ANPR plate, the lower-case vision plate "hr26ct1871" fails the case-sensitive check and is still taken by the last rule as "HR26CT1871" |
| Classifier.Classify | src/app/api/analyze/route.ts:156-181 | the step succeeds exactly when the call answered, the stripped text parsed to a non-null value and reconciliation did not throw; the data is the parsed value and the plate the reconciled one |
| Classifier.FallbackData | src/app/api/analyze/route.ts:211-218 | the record substituted when the classifier step fails: five flags off at confidence 0 and the fixed comment (its reading is stated by Analysis.FallbackFlagsOff) |
| Classifier.Explanation | src/app/api/analyze/route.ts:229 | the explanation is the `comment` member when that is truthy, otherwise null |
| Scoring.Round2 | src/app/api/analyze/route.ts:206 | `parseFloat(x.toFixed(2))` on exact values: the nearest hundredth, a tie away from zero (bounds in Scoring.Round2Properties) |
| Scoring.Detected | src/app/api/analyze/route.ts:195 | a kind counts only when its entry exists and its `detected` member is exactly `true` |
| Scoring.Confidence | src/app/api/analyze/route.ts:196 | `confidence || 0`: a numeric confidence is used as it is, anything else as 0 |
| Scoring.Validity | src/app/api/analyze/route.ts:194-202 | the running highest detected confidence, or 0 (characterised by Scoring.ValidityIsMaximum) |
| Scoring.Priority | src/app/api/analyze/route.ts:194-206 | the weighted sum of detected confidences, capped at 1, times the authenticity score, rounded to hundredths (bounds in Scoring.ScoresInUnit) |
| Scoring.FallbackPriority | src/app/api/analyze/route.ts:220 | the failure baseline, 0.2 times the authenticity score rounded to hundredths (bounds in Scoring.FallbackPriorityBounds) |
| Scoring.Round2Properties | src/app/api/analyze/route.ts:206 | rounding to hundredths moves a non-negative value by at most 0.005 and keeps [0,1] |
| Scoring.Round2Monotone | src/app/api/analyze/route.ts:206 | rounding to hundredths is monotone on non-negative values, the only ones it is applied to |
| Scoring.HighestIsMaximum | src/app/api/analyze/route.ts:194-200 | after any prefix of the weight table, the running highest confidence bounds every detected confidence so far and is 0 or one of them |
| Scoring.ValidityIsMaximum | src/app/api/analyze/route.ts:194-202 | validity is the maximum confidence among detected kinds, and 0 when none is detected |
| Scoring.RawIsNonNegative | src/app/api/analyze/route.ts:194-200 | with confidences in [0,1], the weighted sum is never negative |
| Scoring.ScaleInUnit | src/app/api/analyze/route.ts:206 | clamping and scaling by an authenticity in [0,1] lands in [0,1], at most 0.005 above the authenticity |
| Scoring.ScaleMonotone | src/app/api/analyze/route.ts:206 | a lower authenticity never gives a higher scaled priority |
| Scoring.ScoresInUnit | src/app/api/analyze/route.ts:184-206 | with confidences and authenticity in [0,1], validity and priority are in [0,1] and priority exceeds authenticity by at most 0.005 |
| Scoring.PriorityMonotoneInAuthenticity | src/app/api/analyze/route.ts:204-206 | a less authentic picture never ranks higher |
| Scoring.ScoreSignals | src/app/api/analyze/route.ts:184-206 | the `forEach` loop computes exactly the validity and priority of the parsed reply |
| Scoring.FallbackPriorityBounds | src/app/api/analyze/route.ts:220 | the failure baseline is in [0, 0.2] and is exactly 0.2 for a genuine picture |
| Scoring.FallbackPriorityMonotone | src/app/api/analyze/route.ts:220 | the failure baseline never grows when the authenticity score drops |
| Scoring.FallbackPriorityNonzero | src/app/api/analyze/route.ts:220 | for a non-negative authenticity score the failure baseline is nonzero exactly when the score is at least 0.025 |
| Scoring.TwoViolationsScores | src/app/api/analyze/route.ts:184-206 | wrong-side at 0.8 plus no-helmet at 0.5 give validity 0.8, priority 1.0 when genuine and 0.3 at authenticity 0.3 |
| Analysis.FallbackFlagsOff | src/app/api/analyze/route.ts:211-218 | in the fallback record every weighted kind is not detected and has confidence 0 |
| Analysis.FallbackDataIsQuiet | src/app/api/analyze/route.ts:211-220 | scoring the fallback record would give 0 and 0; the reported baseline is strictly higher exactly when the authenticity score is at least 0.025 |
| Analysis.FallbackExplanation | src/app/api/analyze/route.ts:217-229 | the fallback record's explanation is the fixed "manual review advised" comment |
| Analysis.Analyze | src/app/api/analyze/route.ts:7-230 | a missing locator and a failed download are the refusals it represents, and every other input yields a record; the record holds the authenticity score, the classified or fallback flags, plate and scores, and the `comment` explanation; the plate is the ANPR plate or the normalised vision plate; the scores are in [0,1] when the services' numbers are; with every service off the record is 1.0, null, fallback flags, 0, 0.2 |
| Dashboard.Keeps | src/app/dashboard/page.tsx:82-87 | the filter predicate: "all" hides rejected reports, "pending_review" groups three statuses, "rejected" shows only rejected ones, any other filter matches its own status |
| Dashboard.FilterReports | src/app/dashboard/page.tsx:82-87 | a report is kept exactly as many times as it was fetched when the filter keeps its status, and not at all otherwise |
| Dashboard.FilterMembership | src/app/dashboard/page.tsx:82-87 | a report is shown exactly when it was fetched and the filter keeps its status |
| Dashboard.FilterIsSubsequence | src/app/dashboard/page.tsx:82-87 | the filtered list is a subsequence of the fetched list, in the same order |
| Dashboard.SortByPriority | src/app/dashboard/page.tsx:68-71 | the fetched order is a permutation ordered by priority, highest first, unscored reports last |
| Dashboard.FilterKeepsPriorityOrder | src/app/dashboard/page.tsx:71-87 | filtering a priority-ordered list keeps it priority-ordered |
| Dashboard.DisplayedQueue | src/app/dashboard/page.tsx:65-87 | the queue shown, sorted then filtered, is in priority order and holds exactly the fetched reports the filter keeps, with their multiplicities |
| Dashboard.StatusBadge | src/app/dashboard/page.tsx:89-98 | the badge is Approved exactly for "approved" and "sent_to_police", Rejected exactly for "rejected", and Pending Review otherwise |
| Dashboard.AllAndRejectedPartition | src/app/dashboard/page.tsx:83-85 | every fetched report appears under exactly one of the "all" and "rejected" filters |
| Dashboard.RejectedFilterMatchesBadge | src/app/dashboard/page.tsx:83-98 | "rejected" shows exactly the Rejected badges and "all" exactly the others |
| Dashboard.PendingFilterShowsPendingBadge | src/app/dashboard/page.tsx:84-98 | every report under "pending_review" carries the Pending Review badge |
| Dashboard.ApprovedFilterOmitsForwarded | src/app/dashboard/page.tsx:86-98 | "approved" shows only Approved badges, yet a "sent_to_police" report carries that badge and is not shown |
| ApiUrl.GetApiUrl | src/lib/api.ts:1-9 | `getApiUrl`: an unset variable counts as empty; a base starting with "http" is prefixed, less one trailing slash; otherwise the path is returned as it is (stated by the lemmas below) |
| ApiUrl.TrimOneSlash | src/lib/api.ts:5 | exactly one trailing slash is removed, and only when there is one |
| ApiUrl.GetApiUrlEndsWithPath | src/lib/api.ts:1-9 | the address always ends with the path; what precedes it is empty or the base less at most one trailing slash |
| ApiUrl.RelativeWithoutAbsoluteBase | src/lib/api.ts:2-8 | an unset, empty or non-"http" base yields the path unchanged |
| ApiUrl.TrailingSlashIsIgnored | src/lib/api.ts:4-5 | an "http" base with or without its trailing slash gives the same address |
| ApiUrl.OnlyOneSlashRemoved | src/lib/api.ts:5 | a base ending in "//" keeps one slash |

## Left out

- The HTTP calls to the three services and the media download are not modelled. Their outcomes
  are inputs: `SightengineOutcome`, `mediaFetched`, `RoboflowOutcome` and `GeminiOutcome`. The
  same goes for the base64 encoding and MIME type of the media, and the prompt text.
- `JSON.parse` is a function parameter of the handler. The `JSON.stringify` text of the ANPR
  reply is an input string beside the parsed tree. The model does not check that the two agree.
- The request body decoding, the `report_id` and `user_comment` fields, the 400/500 response
  envelopes, the CORS headers and all logging are not modelled. The media locator is an optional
  string, and a non-string locator is not modelled. A body that is not JSON, or is `null`, makes
  the code answer with status 500; the model has no input for it, so `Analysis.Analyze` does not
  represent that refusal.
- Duplicate keys in a JSON object: `Member` reads the first one, and `PlateReader.FindText` visits
  every copy in order. `JSON.parse` keeps one member per key, holding the last value, so the
  code's `findText` visits such a key only once.
- Scores are exact reals, not IEEE doubles. `toFixed(2)` is rounding to the nearest hundredth
  with ties away from zero, without binary floating-point error.
- Strings are sequences of code points, not UTF-16 code units, so lengths of text outside the
  Basic Multilingual Plane differ. Upper-casing is ASCII only; the plate pattern and the plate
  normalisation look only at ASCII letters.
- Scoring.Confidence: a confidence that is not a JSON number counts as 0. JavaScript would coerce
  a truthy non-number, such as the string "0.9", in the comparison and the product.
- Analysis.Analyze: the [0,1] bounds on the scores hold only under the stated conditions on the
  services' numbers, because the code does not clamp them.
- The database query behind the dashboard is not modelled. `Dashboard.SortByPriority` states the
  order it returns; ties between equal scores may come back in any order.
- The dashboard's user interface, the Supabase client and its real-time subscription, and the
  other pages are not modelled.
- Classifier.PlainFenceStripsToBare: states the equivalence only when white space follows the
  opening "```". With no white space there, a payload starting with "json" in any letter case
  has those letters removed by the "```json" pass together with the fence, so that reply does
  not strip to the bare payload.

=== FILE: analysis.dfy ===
/** The evidence-analysis request handler: it runs the forensics, ANPR and vision-model steps
    in turn, each behind its own failure boundary, and assembles the analysis record. */
module Analysis {
  import opened Json
  import opened Authenticity
  import opened PlateReader
  import opened Classifier
  import opened Scoring

  /** The `analysis` object of a successful response. */
  datatype AnalysisRecord = AnalysisRecord(
    authenticity: real,
    plate: Option<string>,
    extracted: Json,
    validity: real,
    priority: real,
    explanation: Option<Json>)

  /** The two ways the handler refuses a decoded request: no media locator (status 400), or the
      media itself could not be fetched (status 500). */
  datatype AnalyzeError = MissingMediaUrl | MediaUnavailable

  datatype Response = Analyzed(record: AnalysisRecord) | Refused(error: AnalyzeError)

  /** The POST handler. The outcome of each external call is an input: `sight` for the forensics
      service, `mediaFetched` for the media download, `robo` for the ANPR workflow, `gemini` for
      the vision model; `parse` stands for `JSON.parse`. */
  method Analyze(mediaUrl: Option<string>, sight: SightengineOutcome, mediaFetched: bool,
                 robo: RoboflowOutcome, gemini: GeminiOutcome, parse: string -> Option<Json>)
    returns (resp: Response)
    // the refusals of a decoded request: a missing locator, then a media download that throws
    ensures (mediaUrl.None? || mediaUrl == Some("")) ==> resp == Refused(MissingMediaUrl)
    ensures mediaUrl.Some? && mediaUrl.value != "" && !mediaFetched ==> resp == Refused(MediaUnavailable)
    ensures mediaUrl.Some? && mediaUrl.value != "" && mediaFetched ==> resp.Analyzed?
    // what each field of the record is
    ensures resp.Analyzed? ==> resp.record.authenticity == AuthenticityScore(sight)
    ensures resp.Analyzed? ==> resp.record.explanation == Explanation(resp.record.extracted)
    ensures resp.Analyzed? && Classify(gemini, parse, ReadPlate(robo)).Some? ==>
              var c := Classify(gemini, parse, ReadPlate(robo)).value;
              resp.record.extracted == c.data && resp.record.plate == c.plate
              && resp.record.validity == Validity(c.data)
              && resp.record.priority == Priority(c.data, resp.record.authenticity)
    ensures resp.Analyzed? && Classify(gemini, parse, ReadPlate(robo)).None? ==>
              resp.record.extracted == FallbackData() && resp.record.plate == ReadPlate(robo)
              && resp.record.validity == 0.0
              && resp.record.priority == FallbackPriority(resp.record.authenticity)
    // the plate comes from exactly one source
    ensures resp.Analyzed? ==>
              resp.record.plate == ReadPlate(robo)
              || (Member(resp.record.extracted, "license_plate").Some?
                  && Member(resp.record.extracted, "license_plate").value.JStr?
                  && resp.record.plate == Some(NormalizePlate(Member(resp.record.extracted, "license_plate").value.s)))
    // the three scores stay in [0,1] whenever the services' numbers do
    ensures resp.Analyzed? && ProbabilityInUnit(sight) && ConfidencesInUnit(resp.record.extracted) ==>
              0.0 <= resp.record.authenticity <= 1.0
              && 0.0 <= resp.record.validity <= 1.0
              && 0.0 <= resp.record.priority <= 1.0
    // every dependency disabled or down: the documented baseline record
    ensures resp.Analyzed? && sight.SightUnconfigured? && robo.RoboUnconfigured? && gemini.GeminiFailed? ==>
              resp.record == AnalysisRecord(1.0, None, FallbackData(), 0.0, 0.2, Some(JStr(FallbackComment)))
  {
    if mediaUrl.None? || mediaUrl.value == "" {
      return Refused(MissingMediaUrl);
    }

    // 1. authenticity: starts optimistic, only a reply from the service can change it
    var authenticity := DefaultAuthenticity;
    if sight.SightReply? {
      var p := AiGenerated(sight.body);
      if p.Some? {
        authenticity := 1.0 - p.value;
      } else if Member(sight.body, "status") == Some(JStr("failure")) {
        authenticity := ServiceFailureAuthenticity;
      }
    }

    // 2. a media download that throws aborts the request
    if !mediaFetched {
      return Refused(MediaUnavailable);
    }

    // 3. ANPR plate
    var plate := ReadPlate(robo);

    // 4. vision model, reconciliation and scoring, with the catch-branch fallback
    var extracted: Json;
    var validity: real;
    var priority: real;
    var classified := Classify(gemini, parse, plate);
    if classified.Some? {
      extracted := classified.value.data;
      plate := classified.value.plate;
      validity, priority := ScoreSignals(extracted, authenticity);
      if ProbabilityInUnit(sight) && ConfidencesInUnit(extracted) {
        ScoresInUnit(extracted, authenticity);
      }
    } else {
      extracted := FallbackData();
      validity := 0.0;
      priority := FallbackPriority(authenticity);
      if ProbabilityInUnit(sight) {
        FallbackPriorityBounds(authenticity);
      }
    }

    resp := Analyzed(AnalysisRecord(authenticity, plate, extracted, validity, priority, Explanation(extracted)));
    if sight.SightUnconfigured? && robo.RoboUnconfigured? && gemini.GeminiFailed? {
      FallbackPriorityBounds(authenticity);
      FallbackExplanation();
    }
  }

  /** The fallback record flags nothing: every weighted kind reads as not detected with
      confidence 0. */
  lemma FallbackFlagsOff()
    ensures forall k | 0 <= k < |Weights| :: !Detected(FallbackData(), Weights[k].0) && Confidence(FallbackData(), Weights[k].0) == 0.0
  {
    QuietPrefix(FallbackData().members);
  }

  /** An object whose first five members are the five kinds switched off reads as quiet,
      whatever follows them. */
  lemma QuietPrefix(ms: seq<Field>)
    requires |ms| >= 5
    requires ms[0] == Field("signal_jumping", Flag(false, 0.0)) && ms[1] == Field("no_helmet", Flag(false, 0.0))
    requires ms[2] == Field("wrong_side_driving", Flag(false, 0.0))
    requires ms[3] == Field("zebra_crossing_violation", Flag(false, 0.0))
    requires ms[4] == Field("illegal_parking", Flag(false, 0.0))
    ensures forall k | 0 <= k < |Weights| :: !Detected(JObj(ms), Weights[k].0) && Confidence(JObj(ms), Weights[k].0) == 0.0
  {
    var d := JObj(ms);
    forall k | 0 <= k < |Weights|
      ensures !Detected(d, Weights[k].0) && Confidence(d, Weights[k].0) == 0.0
    {
      var key := Weights[k].0;
      if k == 0 {
        assert key == "no_helmet";
        LookupAt(ms, 1, key);
      } else if k == 1 {
        assert key == "signal_jumping";
        LookupAt(ms, 0, key);
      } else if k == 2 {
        assert key == "wrong_side_driving";
        LookupAt(ms, 2, key);
      } else if k == 3 {
        assert key == "zebra_crossing_violation";
        LookupAt(ms, 3, key);
      } else {
        assert key == "illegal_parking";
        LookupAt(ms, 4, key);
      }
      FlagReads(d, key, false, 0.0);
    }
  }

  /** Scoring the fallback record would give validity 0 and priority 0; the handler instead
      reports the baseline `FallbackPriority`. The baseline ranks a failed analysis above a reply
      that flags nothing only when the authenticity score is at least 0.025; below that it
      rounds to 0 as well. */
  lemma FallbackDataIsQuiet(authenticity: real)
    ensures ConfidencesInUnit(FallbackData())
    ensures Validity(FallbackData()) == 0.0 && Priority(FallbackData(), authenticity) == 0.0
    ensures 0.0 <= authenticity ==>
              (FallbackPriority(authenticity) > Priority(FallbackData(), authenticity) <==> authenticity >= 0.025)
  {
    FallbackFlagsOff();
    QuietScoresZero(FallbackData(), authenticity);
    if 0.0 <= authenticity {
      FallbackPriorityNonzero(authenticity);
    }
  }

  /** A reply that flags no kind scores 0 on both counts. */
  lemma QuietScoresZero(data: Json, authenticity: real)
    requires forall k | 0 <= k < |Weights| :: !Detected(data, Weights[k].0)
    ensures ConfidencesInUnit(data)
    ensures Validity(data) == 0.0 && Priority(data, authenticity) == 0.0
  {
    ValidityIsMaximum(data);
    QuietRawIsZero(data, |Weights|);
    ScaleUnfold(0.0, authenticity);
  }

  lemma {:induction false} QuietRawIsZero(data: Json, n: nat)
    requires n <= |Weights|
    requires forall k | 0 <= k < |Weights| :: !Detected(data, Weights[k].0)
    ensures RawUpTo(data, n) == 0.0
  {
    if n > 0 {
      QuietRawIsZero(data, n - 1);
    }
  }

  /** The fallback record carries the fixed "manual review advised" text as its explanation. */
  lemma FallbackExplanation()
    ensures Explanation(FallbackData()) == Some(JStr(FallbackComment))
  {
  }
}

=== FILE: api_url.dfy ===
/** Building the address of a backend endpoint from the configured base URL. */
module ApiUrl {
  import opened Json

  /** `base.replace(/\/$/, '')`: drops a single slash at the very end, if there is one. */
  function TrimOneSlash(base: string): (r: string)
    ensures base == r || base == r + "/"
    ensures |base| > 0 && base[|base| - 1] == '/' <==> base == r + "/"
  {
    if |base| > 0 && base[|base| - 1] == '/' then base[..|base| - 1] else base
  }

  /** `getApiUrl(path)` with `configured` standing for `NEXT_PUBLIC_API_BASE_URL`: an absolute
      base (one starting with "http") is prefixed, slash-trimmed; anything else leaves the path
      relative. An unset and an empty variable behave alike. */
  function GetApiUrl(configured: Option<string>, path: string): string
  {
    var base := if configured.Some? then configured.value else "";
    if |base| >= 4 && base[..4] == "http" then TrimOneSlash(base) + path else path
  }

  /** The address always ends with the requested path, and what comes before it is the base with
      at most one trailing slash removed, or nothing. */
  lemma GetApiUrlEndsWithPath(configured: Option<string>, path: string)
    ensures var url := GetApiUrl(configured, path);
            |url| >= |path| && url[|url| - |path|..] == path
    ensures var url := GetApiUrl(configured, path);
            var prefix := url[..|url| - |path|];
            prefix == "" || (configured.Some? && (configured.value == prefix || configured.value == prefix + "/"))
  {
    var url := GetApiUrl(configured, path);
    if configured.Some? && |configured.value| >= 4 && configured.value[..4] == "http" {
      var b := TrimOneSlash(configured.value);
      assert url == b + path;
      assert url[|url| - |path|..] == path && url[..|url| - |path|] == b;
    }
  }

  /** Without an absolute base the path is used as it is. */
  lemma RelativeWithoutAbsoluteBase(configured: Option<string>, path: string)
    requires configured.None? || !(|configured.value| >= 4 && configured.value[..4] == "http")
    ensures GetApiUrl(configured, path) == path
  {
  }

  /** A base written with or without its trailing slash gives the same address, so a joined
      path that starts with "/" never shows a doubled separator from the base. */
  lemma TrailingSlashIsIgnored(base: string, path: string)
    requires |base| >= 4 && base[..4] == "http" && base[|base| - 1] != '/'
    ensures GetApiUrl(Some(base + "/"), path) == GetApiUrl(Some(base), path) == base + path
  {
    var b := base + "/";
    assert b[..4] == base[..4];
    assert b[..|b| - 1] == base;
  }

  /** Only one slash is removed: a base ending in "//" still ends in "/" once trimmed. */
  lemma OnlyOneSlashRemoved(base: string, path: string)
    requires |base| >= 4 && base[..4] == "http"
    ensures GetApiUrl(Some(base + "//"), path) == base + "/" + path
  {
    var b := base + "//";
    assert b[..4] == base[..4];
    assert b[..|b| - 1] == base + "/";
  }
}

=== FILE: authenticity.dfy ===
/** Step 1 of the analysis: the authenticity score from the image-forensics service.
    1.0 means the media is taken to be genuine, 0.0 that it is fabricated. */
module Authenticity {
  import opened Json

  /** What the forensics step observed. The HTTP call itself is outside the model. */
  datatype SightengineOutcome =
    | SightUnconfigured       // API user or secret missing: the call is skipped
    | SightFailed             // the request or the body decoding threw
    | SightReply(body: Json)  // the decoded reply body

  const DefaultAuthenticity: real := 1.0
  const ServiceFailureAuthenticity: real := 0.95

  /** `sightData.type.ai_generated` when the reply reports success and that field is a number. */
  function AiGenerated(body: Json): (p: Option<real>)
    ensures p.Some? ==> Member(body, "status") == Some(JStr("success")) && Present(Member(body, "type"))
                        && Member(Member(body, "type").value, "ai_generated").Some?
                        && Member(Member(body, "type").value, "ai_generated").value.JNum?
    ensures Member(body, "status") == Some(JStr("success")) && Present(Member(body, "type"))
            && Member(Member(body, "type").value, "ai_generated").Some?
            && Member(Member(body, "type").value, "ai_generated").value.JNum?
            ==> p == Some(Member(Member(body, "type").value, "ai_generated").value.n)
  {
    var ty := Member(body, "type");
    if Member(body, "status") == Some(JStr("success")) && Present(ty) then
      match Member(ty.value, "ai_generated")
      case Some(JNum(x)) => Some(x)
      case _ => None
    else None
  }

  /** The score after the forensics step: inverted probability on success, 0.95 when the
      service reports its own failure, and the optimistic default in every other case. */
  function AuthenticityScore(sight: SightengineOutcome): (score: real)
    ensures score != DefaultAuthenticity ==> sight.SightReply?
    ensures sight.SightReply? && AiGenerated(sight.body).Some? ==> score + AiGenerated(sight.body).value == 1.0
    ensures sight.SightReply? && Member(sight.body, "status") == Some(JStr("failure")) ==> score == ServiceFailureAuthenticity
    ensures sight.SightReply? && AiGenerated(sight.body).None? && Member(sight.body, "status") != Some(JStr("failure"))
            ==> score == DefaultAuthenticity
    ensures ProbabilityInUnit(sight) ==> 0.0 <= score <= 1.0
  {
    match sight
    case SightReply(body) =>
      if AiGenerated(body).Some? then 1.0 - AiGenerated(body).value
      else if Member(body, "status") == Some(JStr("failure")) then ServiceFailureAuthenticity
      else DefaultAuthenticity
    case _ => DefaultAuthenticity
  }

  /** The service keeps its promise that `ai_generated` is a probability. */
  predicate ProbabilityInUnit(sight: SightengineOutcome)
  {
    sight.SightReply? && AiGenerated(sight.body).Some? ==> 0.0 <= AiGenerated(sight.body).value <= 1.0
  }
}

=== FILE: classifier.dfy ===
/** Step 4 of the analysis: the vision-model reply, from raw text to a parsed record,
    and the reconciliation of its licence plate with the ANPR plate. */
module Classifier {
  import opened Json
  import opened Text
  import opened PlateReader

  /** What the vision-model step observed. The model call itself is outside the model. */
  datatype GeminiOutcome =
    | GeminiFailed              // the call threw (no key, network, quota, geo-block)
    | GeminiReply(text: string) // the reply text

  // ---------------------------------------------------------------------------
  // Code-fence stripping: textStr.replace(/```json/gi, '').replace(/```/g, '').trim()

  const JsonFence: string := "```json"
  const Fence: string := "```"

  /** `a` equals `pat`, letter case ignored when `ignoreCase` holds (the `i` flag). */
  predicate SameText(a: string, pat: string, ignoreCase: bool)
  {
    if ignoreCase then ToUpper(a) == ToUpper(pat) else a == pat
  }

  /** A global `replace` of `pat` by the empty string: the leftmost occurrence is removed and the
      scan resumes after it, so occurrences never overlap. */
  function RemoveAll(s: string, pat: string, ignoreCase: bool): (r: string)
    requires |pat| > 0
    ensures |r| <= |s|
    decreases |s|
  {
    if |s| < |pat| then s
    else if SameText(s[..|pat|], pat, ignoreCase) then RemoveAll(s[|pat|..], pat, ignoreCase)
    else [s[0]] + RemoveAll(s[1..], pat, ignoreCase)
  }

  /** The text handed to `JSON.parse`. */
  function StripFences(text: string): string
  {
    Trim(RemoveAll(RemoveAll(text, JsonFence, true), Fence, false))
  }

  predicate NoBacktick(s: string)
  {
    forall i | 0 <= i < |s| :: s[i] != '`'
  }

  /** A window starting with a character other than a backtick never matches a pattern that
      starts with one, in either letter-case mode. */
  lemma WindowMissesFence(a: string, pat: string, ignoreCase: bool)
    requires |a| == |pat| > 0 && pat[0] == '`' && a[0] != '`'
    ensures !SameText(a, pat, ignoreCase)
  {
    if ignoreCase {
      assert ToUpper(a)[0] == UpperChar(a[0]) != '`';
      assert ToUpper(pat)[0] == '`';
    } else {
      assert a[0] != pat[0];
    }
  }

  /** Text without a backtick passes through the removal untouched, wherever it stands. */
  lemma {:induction false} RemoveAllSkipsPlainPrefix(x: string, y: string, pat: string, ignoreCase: bool)
    requires |pat| > 0 && pat[0] == '`' && NoBacktick(x)
    ensures RemoveAll(x + y, pat, ignoreCase) == x + RemoveAll(y, pat, ignoreCase)
  {
    if |x| == 0 {
      assert x + y == y;
    } else {
      assert NoBacktick(x[1..]) by {
        forall i | 0 <= i < |x[1..]| ensures x[1..][i] != '`' {
          assert x[1..][i] == x[i + 1];
        }
      }
      RemoveAllSkipsPlainPrefix(x[1..], y, pat, ignoreCase);
      SkipsPlainChar(x, y, pat, ignoreCase);
    }
  }

  /** The step of `RemoveAllSkipsPlainPrefix`: a first character other than a backtick is kept. */
  lemma SkipsPlainChar(x: string, y: string, pat: string, ignoreCase: bool)
    requires |pat| > 0 && pat[0] == '`' && |x| > 0 && x[0] != '`'
    requires RemoveAll(x[1..] + y, pat, ignoreCase) == x[1..] + RemoveAll(y, pat, ignoreCase)
    ensures RemoveAll(x + y, pat, ignoreCase) == x + RemoveAll(y, pat, ignoreCase)
  {
    PlainFrontMisses(x + y, pat, ignoreCase);
    RemoveAllAtMiss(x + y, pat, ignoreCase);
    DropFirst(x, y);
  }

  lemma PlainFrontMisses(s: string, pat: string, ignoreCase: bool)
    requires |pat| > 0 && pat[0] == '`' && |s| > 0 && s[0] != '`'
    ensures !MatchesAt(s, 0, pat, ignoreCase)
  {
    if |pat| <= |s| {
      assert s[0..|pat|][0] == s[0];
      WindowMissesFence(s[0..|pat|], pat, ignoreCase);
    }
  }


  /** The opening fence in any letter case, for example "```json" or "```JSON". */
  predicate IsJsonFence(o: string)
  {
    |o| == |JsonFence| && SameText(o, JsonFence, true)
  }

  lemma SpaceHasNoBacktick(w: string)
    requires AllSpace(w)
    ensures NoBacktick(w)
  {
    assert forall i | 0 <= i < |w| :: IsSpace(w[i]);
  }

  /** An occurrence of `pat` starts at position `i` of `s`. */
  predicate MatchesAt(s: string, i: int, pat: string, ignoreCase: bool)
  {
    0 <= i && i + |pat| <= |s| && SameText(s[i..i + |pat|], pat, ignoreCase)
  }

  /** No occurrence of `pat` anywhere in `s`. */
  predicate NoMatchIn(s: string, pat: string, ignoreCase: bool)
  {
    forall i | 0 <= i < |s| :: !MatchesAt(s, i, pat, ignoreCase)
  }

  /** No occurrence of `pat` starts before position `cut` of `s` and ends after it. */
  predicate NoMatchAcross(s: string, cut: int, pat: string, ignoreCase: bool)
  {
    forall i | 0 <= i < cut && cut < i + |pat| :: !MatchesAt(s, i, pat, ignoreCase)
  }

  /** Dropping `m` characters from the front moves every window `m` places to the left. */
  lemma MatchesAtDrop(s: string, m: nat, i: nat, pat: string, ignoreCase: bool)
    requires m <= |s|
    ensures MatchesAt(s[m..], i, pat, ignoreCase) == MatchesAt(s, i + m, pat, ignoreCase)
  {
    if i + |pat| <= |s| - m {
      assert s[m..][i..i + |pat|] == s[i + m..i + m + |pat|];
    }
  }

  /** Text holding no occurrence of the pattern passes through the removal unchanged. */
  lemma {:induction false} RemoveAllNoMatch(s: string, pat: string, ignoreCase: bool)
    requires |pat| > 0 && NoMatchIn(s, pat, ignoreCase)
    ensures RemoveAll(s, pat, ignoreCase) == s
    decreases |s|
  {
    if |s| >= |pat| {
      assert s[0..|pat|] == s[..|pat|];
      assert !MatchesAt(s, 0, pat, ignoreCase);
      var t := s[1..];
      forall i | 0 <= i < |t|
        ensures !MatchesAt(t, i, pat, ignoreCase)
      {
        MatchesAtDrop(s, 1, i, pat, ignoreCase);
      }
      RemoveAllNoMatch(t, pat, ignoreCase);
      assert [s[0]] + t == s;
    }
  }

  lemma NoMatchAcrossDrop(x: string, y: string, m: nat, pat: string, ignoreCase: bool)
    requires m <= |x| && NoMatchAcross(x + y, |x|, pat, ignoreCase)
    ensures NoMatchAcross(x[m..] + y, |x| - m, pat, ignoreCase)
  {
    var s := x + y;
    assert x[m..] + y == s[m..];
    forall i | 0 <= i < |x| - m && |x| - m < i + |pat|
      ensures !MatchesAt(s[m..], i, pat, ignoreCase)
    {
      MatchesAtDrop(s, m, i, pat, ignoreCase);
    }
  }

  /** When no occurrence straddles the boundary between two texts, the removal treats them
      separately: the scan reaches the boundary in step and continues from there. */
  lemma {:induction false} RemoveAllSplits(x: string, y: string, pat: string, ignoreCase: bool)
    requires |pat| > 0 && NoMatchAcross(x + y, |x|, pat, ignoreCase)
    ensures RemoveAll(x + y, pat, ignoreCase) == RemoveAll(x, pat, ignoreCase) + RemoveAll(y, pat, ignoreCase)
    decreases |x|
  {
    if |x| == 0 {
      assert x + y == y;
    } else if MatchesAt(x + y, 0, pat, ignoreCase) {
      assert |pat| <= |x|;
      NoMatchAcrossDrop(x, y, |pat|, pat, ignoreCase);
      RemoveAllSplits(x[|pat|..], y, pat, ignoreCase);
      SplitsAfterMatch(x, y, pat, ignoreCase);
    } else {
      NoMatchAcrossDrop(x, y, 1, pat, ignoreCase);
      RemoveAllSplits(x[1..], y, pat, ignoreCase);
      SplitsAfterMiss(x, y, pat, ignoreCase);
    }
  }

  /** The step of `RemoveAllSplits` for an occurrence at the front, which lies inside `x`. */
  lemma SplitsAfterMatch(x: string, y: string, pat: string, ignoreCase: bool)
    requires 0 < |pat| <= |x| && MatchesAt(x + y, 0, pat, ignoreCase)
    requires RemoveAll(x[|pat|..] + y, pat, ignoreCase) == RemoveAll(x[|pat|..], pat, ignoreCase) + RemoveAll(y, pat, ignoreCase)
    ensures RemoveAll(x + y, pat, ignoreCase) == RemoveAll(x, pat, ignoreCase) + RemoveAll(y, pat, ignoreCase)
  {
    MatchAtFrontOfPrefix(x, y, pat, ignoreCase);
    RemoveAllAtMatch(x + y, pat, ignoreCase);
    RemoveAllAtMatch(x, pat, ignoreCase);
  }

  lemma MatchAtFrontOfPrefix(x: string, y: string, pat: string, ignoreCase: bool)
    requires |pat| <= |x| && MatchesAt(x + y, 0, pat, ignoreCase)
    ensures MatchesAt(x, 0, pat, ignoreCase) && (x + y)[|pat|..] == x[|pat|..] + y
  {
    assert x[0..|pat|] == (x + y)[0..|pat|];
  }

  /** The step of `RemoveAllSplits` when no occurrence starts at the front. */
  lemma SplitsAfterMiss(x: string, y: string, pat: string, ignoreCase: bool)
    requires 0 < |pat| && 0 < |x| && !MatchesAt(x + y, 0, pat, ignoreCase)
    requires RemoveAll(x[1..] + y, pat, ignoreCase) == RemoveAll(x[1..], pat, ignoreCase) + RemoveAll(y, pat, ignoreCase)
    ensures RemoveAll(x + y, pat, ignoreCase) == RemoveAll(x, pat, ignoreCase) + RemoveAll(y, pat, ignoreCase)
  {
    MissAtFrontOfPrefix(x, y, pat, ignoreCase);
    RemoveAllAtMiss(x + y, pat, ignoreCase);
    RemoveAllAtMiss(x, pat, ignoreCase);
    DropFirst(x, y);
    Associative([x[0]], RemoveAll(x[1..], pat, ignoreCase), RemoveAll(y, pat, ignoreCase));
  }

  lemma MissAtFrontOfPrefix(x: string, y: string, pat: string, ignoreCase: bool)
    requires !MatchesAt(x + y, 0, pat, ignoreCase)
    ensures !MatchesAt(x, 0, pat, ignoreCase)
  {
    if |pat| <= |x| {
      assert x[0..|pat|] == (x + y)[0..|pat|];
    }
  }

  /** An occurrence at the front is removed and the scan resumes after it. */
  lemma RemoveAllAtMatch(s: string, pat: string, ignoreCase: bool)
    requires |pat| > 0 && MatchesAt(s, 0, pat, ignoreCase)
    ensures RemoveAll(s, pat, ignoreCase) == RemoveAll(s[|pat|..], pat, ignoreCase)
  {
    assert s[0..|pat|] == s[..|pat|];
  }

  /** Without an occurrence at the front, the first character is kept and the scan moves on. */
  lemma RemoveAllAtMiss(s: string, pat: string, ignoreCase: bool)
    requires |pat| > 0 && |s| > 0 && !MatchesAt(s, 0, pat, ignoreCase)
    ensures RemoveAll(s, pat, ignoreCase) == [s[0]] + RemoveAll(s[1..], pat, ignoreCase)
  {
    if |s| >= |pat| {
      assert s[0..|pat|] == s[..|pat|];
    } else {
      assert RemoveAll(s[1..], pat, ignoreCase) == s[1..];
      assert [s[0]] + s[1..] == s;
    }
  }

  // The first pass, /```json/gi: it needs four letters, so text without letters never matches.

  predicate NoLetter(s: string)
  {
    forall i | 0 <= i < |s| :: !IsLetter(s[i])
  }

  lemma JsonFenceNeedsLetter(a: string)
    requires |a| == |JsonFence| && !IsLetter(a[6])
    ensures !SameText(a, JsonFence, true)
  {
    assert ToUpper(a)[6] == a[6];
    assert ToUpper(JsonFence)[6] == 'N';
  }

  /** A letterless tail holds no opening fence, and none straddles its start. */
  lemma NoJsonFenceIntoLetterless(p: string, t: string)
    requires NoLetter(t)
    ensures NoMatchAcross(p + t, |p|, JsonFence, true) && NoMatchIn(t, JsonFence, true)
  {
    var s := p + t;
    forall i | 0 <= i < |p| && |p| < i + 7
      ensures !MatchesAt(s, i, JsonFence, true)
    {
      if i + 7 <= |s| {
        assert s[i..i + 7][6] == t[i + 6 - |p|];
        JsonFenceNeedsLetter(s[i..i + 7]);
      }
    }
    forall i | 0 <= i < |t|
      ensures !MatchesAt(t, i, JsonFence, true)
    {
      if i + 7 <= |t| {
        assert t[i..i + 7][6] == t[i + 6];
        JsonFenceNeedsLetter(t[i..i + 7]);
      }
    }
  }

  lemma SpaceHasNoLetter(w: string)
    requires AllSpace(w)
    ensures NoLetter(w)
  {
    assert forall i | 0 <= i < |w| :: IsSpace(w[i]);
  }

  /** The first pass on a fenced reply removes the opening fence, removes from the payload what it
      would remove from the bare payload, and leaves the white space and the closing fence. */
  lemma FirstPass(w0: string, o: string, w1: string, p: string, t: string)
    requires IsJsonFence(o) && NoBacktick(w0) && NoBacktick(w1) && NoLetter(t)
    ensures RemoveAll(w0 + (o + (w1 + (p + t))), JsonFence, true)
            == w0 + (w1 + (RemoveAll(p, JsonFence, true) + t))
  {
    var rest := w1 + (p + t);
    RemoveAllSkipsPlainPrefix(w0, o + rest, JsonFence, true);
    assert (o + rest)[..7] == o && (o + rest)[7..] == rest;
    RemoveAllSkipsPlainPrefix(w1, p + t, JsonFence, true);
    NoJsonFenceIntoLetterless(p, t);
    RemoveAllSplits(p, t, JsonFence, true);
    RemoveAllNoMatch(t, JsonFence, true);
  }

  // The second pass, /```/g: a run of k backticks keeps k mod 3 of them.

  /** `k` backticks. */
  function Ticks(k: nat): (t: string)
    ensures |t| == k && forall i | 0 <= i < k :: t[i] == '`'
  {
    if k == 0 then "" else Ticks(k - 1) + "`"
  }

  lemma FenceNeedsBackticks(a: string, j: int)
    requires |a| == |Fence| && 0 <= j < |a| && a[j] != '`'
    ensures !SameText(a, Fence, false)
  {
    assert a[j] != Fence[j];
  }

  /** A run of backticks followed by text without any loses them three at a time. */
  lemma {:induction false} RemoveAllTicks(k: nat, w: string)
    requires NoBacktick(w)
    ensures RemoveAll(Ticks(k) + w, Fence, false) == Ticks(k % 3) + w
    decreases k
  {
    if k >= 3 {
      RemoveAllTicks(k - 3, w);
      TicksStartWithFence(k, w);
      RemoveAllAtMatch(Ticks(k) + w, Fence, false);
      assert k % 3 == (k - 3) % 3;
    } else {
      ShortRunKept(k, w);
    }
  }

  /** Fewer than three backticks before text without any are left as they are. */
  lemma ShortRunKept(k: nat, w: string)
    requires k < 3 && NoBacktick(w)
    ensures RemoveAll(Ticks(k) + w, Fence, false) == Ticks(k % 3) + w
  {
    NoFenceAcrossShortRun(k, w);
    RemoveAllSplits(Ticks(k), w, Fence, false);
    RemoveAllSkipsPlainPrefix(w, "", Fence, false);
    assert w + "" == w;
  }

  lemma TicksStartWithFence(k: nat, w: string)
    requires k >= 3
    ensures MatchesAt(Ticks(k) + w, 0, Fence, false) && (Ticks(k) + w)[3..] == Ticks(k - 3) + w
  {
    var s := Ticks(k) + w;
    assert s[0..3] == Fence;
    assert s[3..] == Ticks(k - 3) + w;
  }

  lemma NoFenceAcrossShortRun(k: nat, w: string)
    requires k < 3 && NoBacktick(w)
    ensures NoMatchAcross(Ticks(k) + w, k, Fence, false)
  {
    var s := Ticks(k) + w;
    forall i | 0 <= i < k && k < i + 3
      ensures !MatchesAt(s, i, Fence, false)
    {
      if i + 3 <= |s| {
        assert s[i..i + 3][k - i] == w[0];
        FenceNeedsBackticks(s[i..i + 3], k - i);
      }
    }
  }

  /** Before a character other than a backtick, no fence straddles the boundary, so the text up to
      it and a following run of backticks are processed separately. */
  lemma RemoveAllAfterPlainEnd(a: string, k: nat, w: string)
    requires NoBacktick(w) && (|a| == 0 || a[|a| - 1] != '`')
    ensures RemoveAll(a + (Ticks(k) + w), Fence, false) == RemoveAll(a, Fence, false) + (Ticks(k % 3) + w)
  {
    var s := a + (Ticks(k) + w);
    forall i | 0 <= i < |a| && |a| < i + 3
      ensures !MatchesAt(s, i, Fence, false)
    {
      if i + 3 <= |s| {
        assert s[i..i + 3][|a| - 1 - i] == a[|a| - 1];
        FenceNeedsBackticks(s[i..i + 3], |a| - 1 - i);
      }
    }
    RemoveAllSplits(a, Ticks(k) + w, Fence, false);
    RemoveAllTicks(k, w);
  }

  /** The number of backticks `q` ends with. */
  function TrailingTicks(q: string): (t: nat)
    ensures t <= |q| && q[|q| - t..] == Ticks(t)
    ensures t < |q| ==> q[|q| - t - 1] != '`'
  {
    if |q| > 0 && q[|q| - 1] == '`' then
      var t := TrailingTicks(q[..|q| - 1]);
      LongerTrailingRun(q, t);
      1 + t
    else 0
  }

  /** A backtick at the end lengthens the run of backticks before it by one. */
  lemma LongerTrailingRun(q: string, t: nat)
    requires |q| > 0 && q[|q| - 1] == '`' && t <= |q| - 1
    requires q[..|q| - 1][|q| - 1 - t..] == Ticks(t)
    requires t < |q| - 1 ==> q[..|q| - 1][|q| - 2 - t] != '`'
    ensures q[|q| - (t + 1)..] == Ticks(t + 1)
    ensures t + 1 < |q| ==> q[|q| - (t + 1) - 1] != '`'
  {
    assert q[|q| - 1 - t..] == q[..|q| - 1][|q| - 1 - t..] + ['`'];
  }

  /** The second pass removes the closing fence and keeps what it keeps of the bare text:
      either white space separates the two, or the fence lengthens the final run of backticks
      by three, which leaves its length modulo three as it was. */
  lemma SecondPass(q: string, w2: string, w3: string)
    requires AllSpace(w2) && AllSpace(w3)
    ensures RemoveAll(q + (w2 + (Fence + w3)), Fence, false) == RemoveAll(q, Fence, false) + (w2 + w3)
  {
    SpaceHasNoBacktick(w2);
    SpaceHasNoBacktick(w3);
    if |w2| > 0 {
      SecondPassAfterSpace(q, w2, w3);
    } else {
      assert w2 + (Fence + w3) == Fence + w3 && w2 + w3 == w3;
      SecondPassAfterRun(q, w3);
    }
  }

  lemma SecondPassAfterSpace(q: string, w2: string, w3: string)
    requires |w2| > 0 && NoBacktick(w2) && NoBacktick(w3)
    ensures RemoveAll(q + (w2 + (Fence + w3)), Fence, false) == RemoveAll(q, Fence, false) + (w2 + w3)
  {
    var s := q + (w2 + (Fence + w3));
    forall i | 0 <= i < |q| && |q| < i + 3
      ensures !MatchesAt(s, i, Fence, false)
    {
      if i + 3 <= |s| {
        assert s[i..i + 3][|q| - i] == w2[0];
        FenceNeedsBackticks(s[i..i + 3], |q| - i);
      }
    }
    RemoveAllSplits(q, w2 + (Fence + w3), Fence, false);
    RemoveAllSkipsPlainPrefix(w2, Fence + w3, Fence, false);
    assert Fence == Ticks(3);
    RemoveAllTicks(3, w3);
    assert Ticks(0) + w3 == w3;
  }

  lemma SecondPassAfterRun(q: string, w3: string)
    requires NoBacktick(w3)
    ensures RemoveAll(q + (Fence + w3), Fence, false) == RemoveAll(q, Fence, false) + w3
  {
    var t := TrailingTicks(q);
    var a := q[..|q| - t];
    SplitTrailingTicks(q);
    RunWithFence(a, t, w3);
    RunAlone(a, t);
    Associative(RemoveAll(a, Fence, false), Ticks(t % 3), w3);
  }

  lemma SplitTrailingTicks(q: string)
    ensures q == q[..|q| - TrailingTicks(q)] + Ticks(TrailingTicks(q))
  {
    var t := TrailingTicks(q);
    SplitAt(q, |q| - t);
  }

  lemma SplitAt(q: string, n: nat)
    requires n <= |q|
    ensures q == q[..n] + q[n..]
  {
  }

  lemma Associative(x: string, y: string, z: string)
    ensures x + (y + z) == x + y + z
  {
  }

  lemma TicksThenFence(a: string, t: nat, w3: string)
    ensures a + Ticks(t) + (Fence + w3) == a + (Ticks(t + 3) + w3)
  {
    assert Ticks(t) + Fence == Ticks(t + 3);
  }

  lemma RunWithFence(a: string, t: nat, w3: string)
    requires NoBacktick(w3) && (|a| == 0 || a[|a| - 1] != '`')
    ensures RemoveAll(a + Ticks(t) + (Fence + w3), Fence, false) == RemoveAll(a, Fence, false) + (Ticks(t % 3) + w3)
  {
    TicksThenFence(a, t, w3);
    RemoveAllAfterPlainEnd(a, t + 3, w3);
    SameRemainder(t);
  }

  lemma SameRemainder(t: nat)
    ensures Ticks((t + 3) % 3) == Ticks(t % 3)
  {
    assert (t + 3) % 3 == t % 3;
  }

  lemma RunAlone(a: string, t: nat)
    requires |a| == 0 || a[|a| - 1] != '`'
    ensures RemoveAll(a + Ticks(t), Fence, false) == RemoveAll(a, Fence, false) + Ticks(t % 3)
  {
    assert a + Ticks(t) == a + (Ticks(t) + "");
    RemoveAllAfterPlainEnd(a, t, "");
    assert Ticks(t % 3) + "" == Ticks(t % 3);
  }

  lemma ConcatKeepsPlain(a: string, b: string)
    ensures NoBacktick(a) && NoBacktick(b) ==> NoBacktick(a + b)
    ensures NoLetter(a) && NoLetter(b) ==> NoLetter(a + b)
    ensures AllSpace(a) && AllSpace(b) ==> AllSpace(a + b)
  {
    assert forall i | 0 <= i < |a + b| :: (a + b)[i] == if i < |a| then a[i] else b[i - |a|];
  }

  /** Both passes leave a payload without backticks untouched. */
  lemma {:induction false} PassesKeepPlain(p: string)
    requires NoBacktick(p)
    ensures RemoveAll(RemoveAll(p, JsonFence, true), Fence, false) == p
  {
    RemoveAllSkipsPlainPrefix(p, "", JsonFence, true);
    RemoveAllSkipsPlainPrefix(p, "", Fence, false);
    assert p + "" == p;
  }

  /** A reply without backticks is only trimmed before it is parsed. */
  lemma PlainReplyIsTrimmed(text: string)
    requires NoBacktick(text)
    ensures StripFences(text) == Trim(text)
  {
    PassesKeepPlain(text);
  }

  /** The first pass over a fenced reply, stated for the tail after the payload. */
  lemma FirstPassOnFenced(w0: string, o: string, w1: string, p: string, w2: string, w3: string)
    requires IsJsonFence(o) && AllSpace(w0) && AllSpace(w1) && AllSpace(w2) && AllSpace(w3)
    ensures RemoveAll(w0 + o + w1 + p + w2 + Fence + w3, JsonFence, true)
            == (w0 + w1) + (RemoveAll(p, JsonFence, true) + (w2 + (Fence + w3)))
  {
    var t := w2 + (Fence + w3);
    SpaceHasNoBacktick(w0);
    SpaceHasNoBacktick(w1);
    ClosingHasNoLetter(w2, w3);
    RegroupReply(w0, o, w1, p, w2, w3);
    FirstPass(w0, o, w1, p, t);
    Associative(w0, w1, RemoveAll(p, JsonFence, true) + t);
  }

  lemma ClosingHasNoLetter(w2: string, w3: string)
    requires AllSpace(w2) && AllSpace(w3)
    ensures NoLetter(w2 + (Fence + w3))
  {
    SpaceHasNoLetter(w2);
    SpaceHasNoLetter(w3);
    assert NoLetter(Fence);
    ConcatKeepsPlain(Fence, w3);
    ConcatKeepsPlain(w2, Fence + w3);
  }

  lemma RegroupReply(w0: string, o: string, w1: string, p: string, w2: string, w3: string)
    ensures w0 + o + w1 + p + w2 + Fence + w3 == w0 + (o + (w1 + (p + (w2 + (Fence + w3)))))
  {
  }

  /** The second pass over what the first pass left. */
  lemma SecondPassOnFenced(w: string, q: string, w2: string, w3: string)
    requires AllSpace(w) && AllSpace(w2) && AllSpace(w3)
    ensures RemoveAll(w + (q + (w2 + (Fence + w3))), Fence, false) == w + (RemoveAll(q, Fence, false) + (w2 + w3))
  {
    SpaceHasNoBacktick(w);
    RemoveAllSkipsPlainPrefix(w, q + (w2 + (Fence + w3)), Fence, false);
    SecondPass(q, w2, w3);
  }

  /** A payload wrapped as white space + "```json" + white space + payload + white space + "```" +
      white space reaches `JSON.parse` exactly as the bare payload does, whatever the payload
      holds, backticks and "```json" included. */
  lemma FencedPayloadStripsToBare(w0: string, o: string, w1: string, p: string, w2: string, w3: string)
    requires IsJsonFence(o) && AllSpace(w0) && AllSpace(w1) && AllSpace(w2) && AllSpace(w3)
    ensures StripFences(w0 + o + w1 + p + w2 + Fence + w3) == StripFences(p)
  {
    var q := RemoveAll(p, JsonFence, true);
    var r := RemoveAll(q, Fence, false);
    FirstPassOnFenced(w0, o, w1, p, w2, w3);
    ConcatKeepsPlain(w0, w1);
    ConcatKeepsPlain(w2, w3);
    SecondPassOnFenced(w0 + w1, q, w2, w3);
    AroundSpaceTrims(w0 + w1, r, w2 + w3);
  }

  lemma AroundSpaceTrims(w: string, r: string, v: string)
    requires AllSpace(w) && AllSpace(v)
    ensures Trim(w + (r + v)) == Trim(r)
  {
    assert w + (r + v) == w + r + v;
    TrimIgnoresSurroundingSpace(w, r, v);
  }

  /** A window holding white space anywhere is not "```json" in any letter case. */
  lemma SpaceMissesJsonFence(a: string, j: int)
    requires |a| == |JsonFence| && 0 <= j < |a| && IsSpace(a[j])
    ensures !SameText(a, JsonFence, true)
  {
    assert ToUpper(a)[j] == a[j];
    assert ToUpper(JsonFence) == "```JSON";
  }

  /** A plain "```" followed by white space is not the start of a "```json" fence. */
  lemma NoJsonFenceAfterPlainFence(rest: string)
    requires |rest| > 0 && IsSpace(rest[0])
    ensures RemoveAll(Fence + rest, JsonFence, true) == Fence + RemoveAll(rest, JsonFence, true)
  {
    var s := Fence + rest;
    forall i | 0 <= i < 3 && 3 < i + |JsonFence|
      ensures !MatchesAt(s, i, JsonFence, true)
    {
      if i + 7 <= |s| {
        assert s[i..i + 7][3 - i] == rest[0];
        SpaceMissesJsonFence(s[i..i + 7], 3 - i);
      }
    }
    RemoveAllSplits(Fence, rest, JsonFence, true);
  }

  /** The first pass over a reply opened by a plain "```": only the payload changes. */
  lemma PlainFirstPass(w0: string, w1: string, p: string, t: string)
    requires NoBacktick(w0) && AllSpace(w1) && |w1| > 0 && NoLetter(t)
    ensures RemoveAll(w0 + (Fence + (w1 + (p + t))), JsonFence, true)
            == w0 + (Fence + (w1 + (RemoveAll(p, JsonFence, true) + t)))
  {
    SpaceHasNoBacktick(w1);
    RemoveAllSkipsPlainPrefix(w0, Fence + (w1 + (p + t)), JsonFence, true);
    NoJsonFenceAfterPlainFence(w1 + (p + t));
    RemoveAllSkipsPlainPrefix(w1, p + t, JsonFence, true);
    NoJsonFenceIntoLetterless(p, t);
    RemoveAllSplits(p, t, JsonFence, true);
    RemoveAllNoMatch(t, JsonFence, true);
  }

  /** The second pass removes both plain fences and whatever "```" runs the payload holds. */
  lemma PlainSecondPass(w0: string, w1: string, q: string, w2: string, w3: string)
    requires AllSpace(w0) && AllSpace(w1) && AllSpace(w2) && AllSpace(w3)
    ensures RemoveAll(w0 + (Fence + (w1 + (q + (w2 + (Fence + w3))))), Fence, false)
            == w0 + (w1 + (RemoveAll(q, Fence, false) + (w2 + w3)))
  {
    var x := w1 + (q + (w2 + (Fence + w3)));
    SpaceHasNoBacktick(w0);
    RemoveAllSkipsPlainPrefix(w0, Fence + x, Fence, false);
    assert (Fence + x)[..3] == Fence && (Fence + x)[3..] == x;
    SecondPassOnFenced(w1, q, w2, w3);
  }

  /** A payload wrapped in a plain "```" fence reaches `JSON.parse` exactly as the bare payload
      does, provided white space separates the opening fence from the payload. Without it a
      payload starting with "json" in any letter case would lose those letters to the first pass. */
  lemma PlainFenceStripsToBare(w0: string, w1: string, p: string, w2: string, w3: string)
    requires AllSpace(w0) && AllSpace(w1) && |w1| > 0 && AllSpace(w2) && AllSpace(w3)
    ensures StripFences(w0 + Fence + w1 + p + w2 + Fence + w3) == StripFences(p)
  {
    var q := RemoveAll(p, JsonFence, true);
    var r := RemoveAll(q, Fence, false);
    assert w0 + Fence + w1 + p + w2 + Fence + w3 == w0 + (Fence + (w1 + (p + (w2 + (Fence + w3)))));
    SpaceHasNoBacktick(w0);
    ClosingHasNoLetter(w2, w3);
    PlainFirstPass(w0, w1, p, w2 + (Fence + w3));
    PlainSecondPass(w0, w1, q, w2, w3);
    ConcatKeepsPlain(w0, w1);
    ConcatKeepsPlain(w2, w3);
    Associative(w0, w1, r + (w2 + w3));
    AroundSpaceTrims(w0 + w1, r, w2 + w3);
  }

  // ---------------------------------------------------------------------------
  // Plate plausibility and reconciliation

  /** `looksLikePlate` on a string: 7 to 11 characters holding two upper-case letters
      immediately followed by a digit. */
  predicate LooksLikePlate(p: string)
  {
    7 <= |p| <= 11
    && exists i | 0 <= i && i + 2 < |p| :: IsUpperLetter(p[i]) && IsUpperLetter(p[i + 1]) && IsDigit(p[i + 2])
  }

  /** `looksLikePlate(plate_number)`: the ANPR plate is null or a string. */
  predicate PlausibleAnpr(plate: Option<string>)
  {
    plate.Some? && LooksLikePlate(plate.value)
  }

  /** `looksLikePlate(extracted_data.license_plate)`: the field may be absent or of any type. */
  predicate PlausibleField(v: Option<Json>)
  {
    v.Some? && v.value.JStr? && LooksLikePlate(v.value.s)
  }

  /** Every plate found by the ANPR pattern search passes the plausibility check,
      so reconciliation always keeps it. */
  lemma PrimaryPlateLooksLikePlate(serialized: string)
    requires PrimaryPlate(serialized).Some?
    ensures LooksLikePlate(PrimaryPlate(serialized).value)
  {
    var c := RemoveSpaces(serialized);
    var k, n :| 0 <= k && MatchAt(c, k, n) && PrimaryPlate(serialized).value == ToUpper(c[k..k + n]);
    MatchLooksLikePlate(c[k..k + n]);
  }

  /** Upper-casing text matched by the plate pattern gives a string `looksLikePlate` accepts. */
  lemma MatchLooksLikePlate(t: string)
    requires MatchesPlatePattern(t)
    ensures LooksLikePlate(ToUpper(t))
  {
    var d, l :| 1 <= d <= 2 && 1 <= l <= 2 && PlateShape(t, d, l);
    var u := ToUpper(t);
    assert t[..2][0] == t[0] && t[..2][1] == t[1] && t[2..2 + d][0] == t[2];
    assert IsUpperLetter(u[0]) && IsUpperLetter(u[1]) && IsDigit(u[2]);
  }

  /** The outcome of reconciliation: the chosen plate, or the TypeError thrown when the vision
      model's `license_plate` is a truthy non-string and the last-resort branch calls `replace`. */
  datatype Reconciled = Chosen(plate: Option<string>) | LicensePlateNotString

  /** The three-rule priority choice between the ANPR plate and the vision model's plate. */
  function Reconcile(anpr: Option<string>, field: Option<Json>): (r: Reconciled)
    // rule 1: a plausible ANPR plate is kept unchanged
    ensures PlausibleAnpr(anpr) ==> r == Chosen(anpr)
    // rule 2: otherwise a plausible vision-model plate is used, normalised
    ensures !PlausibleAnpr(anpr) && PlausibleField(field) ==> r == Chosen(Some(NormalizePlate(field.value.s)))
    // rule 3: otherwise the vision-model text is used only when the ANPR step produced nothing
    ensures !PlausibleAnpr(anpr) && !PlausibleField(field) && Present(field) && field.value.JStr?
            ==> r == Chosen(if anpr.Some? && anpr.value != "" then anpr else Some(NormalizePlate(field.value.s)))
    // an implausible ANPR plate is never replaced by an implausible vision-model plate
    ensures anpr.Some? && anpr.value != "" && !PlausibleField(field) ==> r == Chosen(anpr) || r.LicensePlateNotString?
    // exactly one source is chosen, never a blend of the two
    ensures r.Chosen? ==> r.plate == anpr || (field.Some? && field.value.JStr? && r.plate == Some(NormalizePlate(field.value.s)))
    ensures r.LicensePlateNotString? <==> !PlausibleAnpr(anpr) && Present(field) && !field.value.JStr?
  {
    if !PlausibleAnpr(anpr) && PlausibleField(field) then Chosen(Some(NormalizePlate(field.value.s)))
    else if PlausibleAnpr(anpr) then Chosen(anpr)
    else if Present(field) then
      if field.value.JStr? then
        var gemini := NormalizePlate(field.value.s);
        Chosen(if anpr.Some? && anpr.value != "" then anpr else Some(gemini))
      else LicensePlateNotString
    else Chosen(anpr)
  }

  /** When the ANPR candidate is normalised, so is the chosen plate: upper-case ASCII letters and
      digits only, whichever rule picked it. */
  lemma ReconciledPlateIsNormalized(anpr: Option<string>, field: Option<Json>)
    requires anpr.Some? ==> AllPlateChars(anpr.value)
    requires Reconcile(anpr, field).Chosen? && Reconcile(anpr, field).plate.Some?
    ensures AllPlateChars(Reconcile(anpr, field).plate.value)
  {
  }

  /** An implausible ANPR plate survives when the vision model offers nothing: no branch of the
      reconciliation fires and the plate is left as it was. */
  lemma SilentClassifierKeepsAnpr(anpr: Option<string>, field: Option<Json>)
    requires !Present(field)
    ensures Reconcile(anpr, field) == Chosen(anpr)
  {
  }

  /** A well-shaped ANPR plate wins over an ill-shaped vision-model plate. */
  lemma PlausibleAnprWinsExample()
    ensures Reconcile(Some("DL8CX9291"), Some(JStr("XX99YY"))) == Chosen(Some("DL8CX9291"))
  {
    var p := "DL8CX9291";
    assert IsUpperLetter(p[0]) && IsUpperLetter(p[1]) && IsDigit(p[2]);
    assert PlausibleAnpr(Some(p));
  }

  /** With no ANPR plate, a lower-case vision plate fails the case-sensitive plausibility check,
      but the last-resort rule still takes it, normalised to upper case. */
  lemma LowercaseVisionPlateExample()
    ensures Reconcile(None, Some(JStr("hr26ct1871"))) == Chosen(Some("HR26CT1871"))
  {
    var g := "hr26ct1871";
    var f := Some(JStr(g));
    ExampleIsImplausible();
    assert !PlausibleAnpr(None) && !PlausibleField(f);
    assert Present(f) by { assert g != ""; }
    ExampleNormalized();
  }

  lemma ExampleIsImplausible()
    ensures !LooksLikePlate("hr26ct1871")
  {
    var g := "hr26ct1871";
    assert forall i | 0 <= i < |g| :: !IsUpperLetter(g[i]);
  }

  lemma ExampleNormalized()
    ensures NormalizePlate("hr26ct1871") == "HR26CT1871"
  {
    var g := "hr26ct1871";
    assert forall i | 0 <= i < |g| :: IsAlnum(g[i]);
    assert KeepAlnum(g) == g;
    ExampleUpperCased();
  }

  lemma ExampleUpperCased()
    ensures ToUpper("hr26ct1871") == "HR26CT1871"
  {
    assert UpperChar('h') == 'H' && UpperChar('r') == 'R' && UpperChar('c') == 'C' && UpperChar('t') == 'T';
  }

  // ---------------------------------------------------------------------------
  // The classifier step as a whole

  /** The parsed reply and the plate after reconciliation. */
  datatype Classified = Classified(data: Json, plate: Option<string>)

  /** The try-block of the vision-model step up to the scoring loop. It fails (the catch branch runs)
      when the call fails, the stripped text does not parse, the parsed value is `null` (reading a
      field of it throws), or reconciliation throws. `parse` stands for `JSON.parse`. */
  function Classify(gemini: GeminiOutcome, parse: string -> Option<Json>, anpr: Option<string>): (c: Option<Classified>)
    ensures c.Some? ==> gemini.GeminiReply? && parse(StripFences(gemini.text)) == Some(c.value.data)
    ensures c.Some? ==> c.value.data != JNull
    ensures c.Some? ==> Reconcile(anpr, Member(c.value.data, "license_plate")) == Chosen(c.value.plate)
    ensures (gemini.GeminiReply? && parse(StripFences(gemini.text)).Some? && parse(StripFences(gemini.text)).value != JNull
             && Reconcile(anpr, Member(parse(StripFences(gemini.text)).value, "license_plate")).Chosen?) ==> c.Some?
  {
    match gemini
    case GeminiFailed => None
    case GeminiReply(text) =>
      match parse(StripFences(text))
      case None => None
      case Some(data) =>
        if data == JNull then None
        else match Reconcile(anpr, Member(data, "license_plate"))
          case Chosen(p) => Some(Classified(data, p))
          case LicensePlateNotString => None
  }

  /** A fenced reply and the bare reply lead to the same classification. */
  lemma FencedReplyClassifiesAsBare(w0: string, o: string, w1: string, p: string, w2: string, w3: string,
                                    parse: string -> Option<Json>, anpr: Option<string>)
    requires IsJsonFence(o) && AllSpace(w0) && AllSpace(w1) && AllSpace(w2) && AllSpace(w3)
    ensures Classify(GeminiReply(w0 + o + w1 + p + w2 + Fence + w3), parse, anpr) == Classify(GeminiReply(p), parse, anpr)
  {
    FencedPayloadStripsToBare(w0, o, w1, p, w2, w3);
  }

  /** A reply in a plain "```" fence and the bare reply lead to the same classification. */
  lemma PlainFencedReplyClassifiesAsBare(w0: string, w1: string, p: string, w2: string, w3: string,
                                         parse: string -> Option<Json>, anpr: Option<string>)
    requires AllSpace(w0) && AllSpace(w1) && |w1| > 0 && AllSpace(w2) && AllSpace(w3)
    ensures Classify(GeminiReply(w0 + Fence + w1 + p + w2 + Fence + w3), parse, anpr) == Classify(GeminiReply(p), parse, anpr)
  {
    PlainFenceStripsToBare(w0, w1, p, w2, w3);
  }

  const FallbackComment: string :=
    "Simulated AI Fallback: The intelligence API failed to process the image correctly. Manual review advised."

  /** The flag record the classifier returns for one kind. */
  function Flag(detected: bool, confidence: real): Json
  {
    JObj([Field("detected", JBool(detected)), Field("confidence", JNum(confidence))])
  }

  /** The record substituted when the classifier step fails: all five flags off, confidence 0. */
  function FallbackData(): Json
  {
    JObj([Field("signal_jumping", Flag(false, 0.0)), Field("no_helmet", Flag(false, 0.0)),
          Field("wrong_side_driving", Flag(false, 0.0)),
          Field("zebra_crossing_violation", Flag(false, 0.0)), Field("illegal_parking", Flag(false, 0.0)),
          Field("comment", JStr(FallbackComment))])
  }

  /** `extracted_data?.comment || null`. */
  function Explanation(data: Json): (e: Option<Json>)
    ensures e.Some? ==> Truthy(e.value) && Member(data, "comment") == e
    ensures e.None? ==> !Present(Member(data, "comment"))
  {
    var c := Member(data, "comment");
    if Present(c) then c else None
  }
}

=== FILE: dashboard.dfy ===
/** The officer queue: the status filter applied to the fetched reports, the order the reports
    arrive in, and the badge shown for each status. */
module Dashboard {
  import opened Json

  /** The part of a stored report the queue logic looks at. */
  datatype Report = Report(id: string, status: string, priorityScore: Option<real>)

  /** The label a status is shown with. */
  datatype Badge = Approved | Rejected | PendingReview

  /** The statuses the "pending_review" filter groups together as awaiting review. */
  const ReviewStatuses: seq<string> := ["submitted", "ai_processed", "pending_review"]

  /** The `filteredReports` predicate for one report. */
  predicate Keeps(filter: string, status: string)
  {
    if filter == "all" then status != "rejected"
    else if filter == "pending_review" then status in ReviewStatuses
    else if filter == "rejected" then status == "rejected"
    else status == filter
  }

  /** `reports.filter(...)`: the reports the filter keeps, in their original order. */
  function FilterReports(reports: seq<Report>, filter: string): (r: seq<Report>)
    ensures |r| <= |reports|
    ensures forall i | 0 <= i < |r| :: Keeps(filter, r[i].status)
    ensures forall x :: multiset(r)[x] == if Keeps(filter, x.status) then multiset(reports)[x] else 0
  {
    if |reports| == 0 then []
    else
      assert reports == [reports[0]] + reports[1..];
      var rest := FilterReports(reports[1..], filter);
      if Keeps(filter, reports[0].status) then [reports[0]] + rest else rest
  }

  /** `sub` is `full` with some elements dropped and the rest left in order. */
  predicate IsSubsequence(sub: seq<Report>, full: seq<Report>)
    decreases |full|
  {
    if |full| == 0 then |sub| == 0
    else (|sub| > 0 && sub[0] == full[0] && IsSubsequence(sub[1..], full[1..]))
         || IsSubsequence(sub, full[1..])
  }

  /** A report is shown exactly when it was fetched and the filter keeps its status. */
  lemma FilterMembership(reports: seq<Report>, filter: string)
    ensures forall x :: x in FilterReports(reports, filter) <==> x in reports && Keeps(filter, x.status)
  {
    var r := FilterReports(reports, filter);
    forall x
      ensures x in r <==> x in reports && Keeps(filter, x.status)
    {
      assert x in r <==> multiset(r)[x] > 0;
      assert x in reports <==> multiset(reports)[x] > 0;
    }
  }

  /** The filtered queue keeps the fetched order. */
  lemma {:induction false} FilterIsSubsequence(reports: seq<Report>, filter: string)
    ensures IsSubsequence(FilterReports(reports, filter), reports)
  {
    if |reports| > 0 {
      FilterIsSubsequence(reports[1..], filter);
      var rest := FilterReports(reports[1..], filter);
      if Keeps(filter, reports[0].status) {
        assert ([reports[0]] + rest)[1..] == rest;
      }
    }
  }

  /** `a` may precede `b` in `order('priority_score', { ascending: false, nullsFirst: false })`:
      a missing score sorts after every present one, present scores sort from high to low. */
  predicate RanksBefore(a: Report, b: Report)
  {
    b.priorityScore.None? || (a.priorityScore.Some? && a.priorityScore.value >= b.priorityScore.value)
  }

  /** The fetched queue's order: highest priority first, unscored reports last. */
  predicate OrderedByPriority(reports: seq<Report>)
  {
    forall i, j | 0 <= i < j < |reports| :: RanksBefore(reports[i], reports[j])
  }

  /** The database's ordering, stated as an insertion sort. */
  function SortByPriority(reports: seq<Report>): (r: seq<Report>)
    ensures OrderedByPriority(r)
    ensures multiset(r) == multiset(reports)
  {
    if |reports| == 0 then []
    else
      assert reports == [reports[0]] + reports[1..];
      InsertByPriority(reports[0], SortByPriority(reports[1..]))
  }

  function InsertByPriority(x: Report, sorted: seq<Report>): (r: seq<Report>)
    requires OrderedByPriority(sorted)
    ensures OrderedByPriority(r)
    ensures multiset(r) == multiset(sorted) + multiset{x}
    ensures forall y :: y in r ==> y == x || y in sorted
  {
    if |sorted| == 0 || RanksBefore(x, sorted[0]) then
      InsertedAtFront(x, sorted);
      [x] + sorted
    else
      assert sorted == [sorted[0]] + sorted[1..];
      var rest := InsertByPriority(x, sorted[1..]);
      AfterHead(sorted[0], sorted[1..], x, rest);
      [sorted[0]] + rest
  }

  lemma InsertedAtFront(x: Report, sorted: seq<Report>)
    requires OrderedByPriority(sorted)
    requires |sorted| == 0 || RanksBefore(x, sorted[0])
    ensures OrderedByPriority([x] + sorted)
  {
    var s := [x] + sorted;
    forall i, j | 0 <= i < j < |s|
      ensures RanksBefore(s[i], s[j])
    {
      if i == 0 {
        RanksBeforeTransitive(x, sorted[0], sorted[j - 1]);
      }
    }
  }

  lemma AfterHead(h: Report, tail: seq<Report>, x: Report, rest: seq<Report>)
    requires OrderedByPriority([h] + tail) && OrderedByPriority(rest)
    requires !RanksBefore(x, h)
    requires forall y :: y in rest ==> y == x || y in tail
    ensures OrderedByPriority([h] + rest)
  {
    var s := [h] + rest;
    forall i, j | 0 <= i < j < |s|
      ensures RanksBefore(s[i], s[j])
    {
      if i == 0 {
        var y := rest[j - 1];
        assert s[j] == y && y in rest;
        if y == x {
          assert RanksBefore(h, x);
        } else {
          var k :| 0 <= k < |tail| && tail[k] == y;
          var full := [h] + tail;
          assert full[0] == h && full[k + 1] == y;
          assert RanksBefore(full[0], full[k + 1]);
        }
      }
    }
  }

  lemma RanksBeforeTransitive(a: Report, b: Report, c: Report)
    requires RanksBefore(a, b) && RanksBefore(b, c)
    ensures RanksBefore(a, c)
  {
  }

  /** Filtering an ordered queue leaves it ordered. */
  lemma {:induction false} FilterKeepsPriorityOrder(reports: seq<Report>, filter: string)
    requires OrderedByPriority(reports)
    ensures OrderedByPriority(FilterReports(reports, filter))
  {
    if |reports| > 0 {
      var tail := reports[1..];
      assert OrderedByPriority(tail) by {
        forall i, j | 0 <= i < j < |tail|
          ensures RanksBefore(tail[i], tail[j])
        {
          assert tail[i] == reports[i + 1] && tail[j] == reports[j + 1];
        }
      }
      FilterKeepsPriorityOrder(tail, filter);
      var rest := FilterReports(tail, filter);
      if Keeps(filter, reports[0].status) {
        var s := [reports[0]] + rest;
        forall i, j | 0 <= i < j < |s|
          ensures RanksBefore(s[i], s[j])
        {
          if i == 0 {
            assert multiset(rest)[s[j]] > 0 by { assert s[j] in rest; }
            var k :| 0 <= k < |tail| && tail[k] == s[j];
            assert reports[k + 1] == s[j];
          }
        }
      }
    }
  }

  /** The queue the officer sees: the fetched reports in the database's order, then filtered.
      It is ordered by priority and holds exactly the fetched reports the filter keeps. */
  lemma DisplayedQueue(fetched: seq<Report>, filter: string)
    ensures OrderedByPriority(FilterReports(SortByPriority(fetched), filter))
    ensures forall x :: multiset(FilterReports(SortByPriority(fetched), filter))[x]
                        == if Keeps(filter, x.status) then multiset(fetched)[x] else 0
  {
    FilterKeepsPriorityOrder(SortByPriority(fetched), filter);
  }

  /** `getStatusBadge`. */
  function StatusBadge(status: string): (b: Badge)
    ensures b == Approved <==> status == "approved" || status == "sent_to_police"
    ensures b == Rejected <==> status == "rejected"
  {
    match status
    case "approved" => Approved
    case "sent_to_police" => Approved
    case "rejected" => Rejected
    case _ => PendingReview
  }

  /** The "all" and "rejected" filters split the queue: every report is shown by exactly one. */
  lemma AllAndRejectedPartition(reports: seq<Report>)
    ensures forall x :: multiset(FilterReports(reports, "all"))[x] + multiset(FilterReports(reports, "rejected"))[x]
                        == multiset(reports)[x]
  {
    forall x
      ensures multiset(FilterReports(reports, "all"))[x] + multiset(FilterReports(reports, "rejected"))[x]
              == multiset(reports)[x]
    {
      assert Keeps("all", x.status) != Keeps("rejected", x.status);
    }
  }

  /** The "rejected" filter shows exactly the reports carrying the Rejected badge, and the
      "all" filter exactly the others. */
  lemma RejectedFilterMatchesBadge(status: string)
    ensures Keeps("rejected", status) <==> StatusBadge(status) == Rejected
    ensures Keeps("all", status) <==> StatusBadge(status) != Rejected
  {
  }

  /** Every report the "pending_review" filter shows carries the Pending Review badge. */
  lemma PendingFilterShowsPendingBadge(status: string)
    ensures Keeps("pending_review", status) ==> StatusBadge(status) == PendingReview
  {
  }

  /** The "approved" filter shows only Approved badges, yet a report forwarded to the police
      carries the Approved badge and is not shown by it. */
  lemma ApprovedFilterOmitsForwarded()
    ensures forall s :: Keeps("approved", s) ==> StatusBadge(s) == Approved
    ensures StatusBadge("sent_to_police") == Approved && !Keeps("approved", "sent_to_police")
  {
  }
}

=== FILE: json.dfy ===
/** An untyped JSON value, the shape every external service reply takes once parsed.
    Object members are kept in the order a `for ... in` loop visits them. */
module Json {

  datatype Option<T> = None | Some(value: T)

  datatype Json =
    | JNull
    | JBool(b: bool)
    | JNum(n: real)
    | JStr(s: string)
    | JArr(items: seq<Json>)
    | JObj(members: seq<Field>)

  /** One `key: value` member of an object. */
  datatype Field = Field(key: string, value: Json)

  /** `v[key]` for a value that is an object holding `key`; absent (undefined) otherwise. */
  function Member(v: Json, key: string): (r: Option<Json>)
  {
    if v.JObj? then Lookup(v.members, key) else None
  }

  /** The value of the first member named `key`. */
  function Lookup(ms: seq<Field>, key: string): (r: Option<Json>)
    ensures r.Some? ==> exists i | 0 <= i < |ms| :: ms[i] == Field(key, r.value)
    ensures r.None? ==> forall i | 0 <= i < |ms| :: ms[i].key != key
  {
    if |ms| == 0 then None
    else if ms[0].key == key then Some(ms[0].value)
    else Lookup(ms[1..], key)
  }

  /** The first member named `key` decides the lookup. */
  lemma {:induction false} LookupAt(ms: seq<Field>, i: nat, key: string)
    requires i < |ms| && ms[i].key == key
    requires forall j | 0 <= j < i :: ms[j].key != key
    ensures Lookup(ms, key) == Some(ms[i].value)
  {
    if i > 0 {
      LookupAt(ms[1..], i - 1, key);
    }
  }

  /** JavaScript truthiness of a parsed JSON value (JSON has no NaN). */
  predicate Truthy(v: Json)
  {
    match v
    case JNull => false
    case JBool(b) => b
    case JNum(n) => n != 0.0
    case JStr(s) => s != ""
    case JArr(_) => true
    case JObj(_) => true
  }

  /** Truthiness of a possibly-absent value: `undefined` is falsy. */
  predicate Present(v: Option<Json>)
  {
    v.Some? && Truthy(v.value)
  }
}

=== FILE: plate_reader.dfy ===
/** Step 3 of the analysis: the licence plate read by the ANPR workflow.
    The plate is taken from the reply in two tiers: a pattern search over the
    reply's serialised text, then a depth-first search for a `text` field. */
module PlateReader {
  import opened Json
  import opened Text

  /** What the ANPR step observed. The HTTP call itself is outside the model. */
  datatype RoboflowOutcome =
    | RoboUnconfigured                          // API key missing: the call is skipped
    | RoboFailed                                // the request or the body decoding threw
    | RoboRejected                              // the service answered with a non-2xx status
    | RoboOk(body: Json, serialized: string)    // the decoded body and its `JSON.stringify` text

  // ---------------------------------------------------------------------------
  // Tier 1: /([A-Z]{2}[0-9]{1,2}[A-Z]{1,2}[0-9]{4})/i over the text without white space

  predicate AllLetters(t: string) { forall i | 0 <= i < |t| :: IsLetter(t[i]) }
  predicate AllDigits(t: string) { forall i | 0 <= i < |t| :: IsDigit(t[i]) }

  /** `t` is two letters, `d` digits, `l` letters and four digits, letters of either case. */
  predicate PlateShape(t: string, d: int, l: int)
  {
    1 <= d <= 2 && 1 <= l <= 2 && |t| == 6 + d + l
    && AllLetters(t[..2]) && AllDigits(t[2..2 + d])
    && AllLetters(t[2 + d..2 + d + l]) && AllDigits(t[2 + d + l..])
  }

  /** `t` as a whole is matched by the plate pattern. */
  predicate MatchesPlatePattern(t: string)
  {
    exists d, l | 1 <= d <= 2 && 1 <= l <= 2 :: PlateShape(t, d, l)
  }

  /** The `n` characters of `s` from position `k` are matched by the plate pattern. */
  predicate MatchAt(s: string, k: int, n: int)
  {
    0 <= k && 0 <= n && k + n <= |s| && MatchesPlatePattern(s[k..k + n])
  }

  /** Some match of the plate pattern starts at position `k` of `s`. */
  predicate MatchStartsAt(s: string, k: int)
  {
    exists n | 8 <= n <= 10 :: MatchAt(s, k, n)
  }

  /** The split with `d` digits and `l` letters matches at position `k`. */
  predicate Fits(s: string, k: nat, d: int, l: int)
  {
    1 <= d <= 2 && 1 <= l <= 2 && k + 6 + d + l <= |s| && PlateShape(s[k..k + 6 + d + l], d, l)
  }

  /** Position `i` of a `d`-digit, `l`-letter split holds a letter (otherwise a digit). */
  predicate LetterPosition(d: int, l: int, i: int)
  {
    i < 2 || 2 + d <= i < 2 + d + l
  }

  /** What the split with `d` digits and `l` letters demands of the character at `k + i`. */
  lemma FitsClassAt(s: string, k: nat, d: int, l: int, i: int)
    requires Fits(s, k, d, l) && 0 <= i < 6 + d + l
    ensures if LetterPosition(d, l, i) then IsLetter(s[k + i]) else IsDigit(s[k + i])
  {
    var t := s[k..k + 6 + d + l];
    assert t[i] == s[k + i];
    if i < 2 { assert t[..2][i] == t[i]; }
    else if i < 2 + d { assert t[2..2 + d][i - 2] == t[i]; }
    else if i < 2 + d + l { assert t[2 + d..2 + d + l][i - 2 - d] == t[i]; }
    else { assert t[2 + d + l..][i - 2 - d - l] == t[i]; }
  }

  /** At any position at most one split of the pattern can match: the character after
      the first digit decides `d` and the character after the first letter group decides `l`. */
  lemma ShapeIsUnique(s: string, k: nat, d1: int, l1: int, d2: int, l2: int)
    requires Fits(s, k, d1, l1) && Fits(s, k, d2, l2)
    ensures d1 == d2 && l1 == l2
  {
    if d1 != d2 {
      FitsClassAt(s, k, d1, l1, 3);
      FitsClassAt(s, k, d2, l2, 3);
    } else if l1 != l2 {
      FitsClassAt(s, k, d1, l1, 3 + d1);
      FitsClassAt(s, k, d2, l2, 3 + d1);
    }
  }

  lemma FitsIsMatch(s: string, k: nat)
    ensures MatchStartsAt(s, k) <==> Fits(s, k, 2, 2) || Fits(s, k, 2, 1) || Fits(s, k, 1, 2) || Fits(s, k, 1, 1)
    ensures forall d, l | Fits(s, k, d, l) :: MatchAt(s, k, 6 + d + l)
  {
    forall d, l | Fits(s, k, d, l) ensures MatchAt(s, k, 6 + d + l) {
      assert PlateShape(s[k..k + 6 + d + l], d, l);
    }
    if MatchStartsAt(s, k) {
      var n :| 8 <= n <= 10 && MatchAt(s, k, n);
      var d, l :| 1 <= d <= 2 && 1 <= l <= 2 && PlateShape(s[k..k + n], d, l);
      assert Fits(s, k, d, l);
    }
  }

  /** The length of the match the regular-expression engine finds at `k`, trying the greedy
      quantifiers in backtracking order: two digits before one, two letters before one. */
  function MatchLengthAt(s: string, k: nat): (n: Option<nat>)
    ensures n.Some? ==> 8 <= n.value <= 10 && MatchAt(s, k, n.value)
    ensures n.None? <==> !MatchStartsAt(s, k)
  {
    FitsIsMatch(s, k);
    if Fits(s, k, 2, 2) then Some(10)
    else if Fits(s, k, 2, 1) then Some(9)
    else if Fits(s, k, 1, 2) then Some(9)
    else if Fits(s, k, 1, 1) then Some(8)
    else None
  }

  /** The match at a position is unique, so the engine's backtracking order cannot change it. */
  lemma MatchLengthIsUnique(s: string, k: nat, n: int)
    requires MatchAt(s, k, n)
    ensures MatchLengthAt(s, k) == Some(n)
  {
    var d, l :| 1 <= d <= 2 && 1 <= l <= 2 && PlateShape(s[k..k + n], d, l);
    assert Fits(s, k, d, l);
    FitsIsMatch(s, k);
    var m := MatchLengthAt(s, k).value;
    var d', l' :| 1 <= d' <= 2 && 1 <= l' <= 2 && PlateShape(s[k..k + m], d', l');
    assert Fits(s, k, d', l');
    ShapeIsUnique(s, k, d, l, d', l');
  }

  /** `String.prototype.match` without the `g` flag: the leftmost match at or after `k`,
      as its start and length. */
  function SearchFrom(s: string, k: nat): (m: Option<(nat, nat)>)
    decreases |s| - k
    ensures m.Some? ==> k <= m.value.0 && MatchAt(s, m.value.0, m.value.1)
    ensures m.Some? ==> 8 <= m.value.1 <= 10
    ensures m.Some? ==> forall j | k <= j < m.value.0 :: !MatchStartsAt(s, j)
    ensures m.None? ==> forall j | k <= j :: !MatchStartsAt(s, j)
  {
    if k >= |s| then None
    else match MatchLengthAt(s, k)
      case Some(n) => Some((k, n))
      case None => SearchFrom(s, k + 1)
  }

  lemma PatternIsAlnum(t: string)
    requires MatchesPlatePattern(t)
    ensures forall i | 0 <= i < |t| :: IsAlnum(t[i])
  {
    var d, l :| 1 <= d <= 2 && 1 <= l <= 2 && PlateShape(t, d, l);
    forall i | 0 <= i < |t| ensures IsAlnum(t[i]) {
      if i < 2 { assert t[..2][i] == t[i]; }
      else if i < 2 + d { assert t[2..2 + d][i - 2] == t[i]; }
      else if i < 2 + d + l { assert t[2 + d..2 + d + l][i - 2 - d] == t[i]; }
      else { assert t[2 + d + l..][i - 2 - d - l] == t[i]; }
    }
  }

  /** Tier 1: the upper-cased leftmost pattern match in the serialised reply with every
      white-space character removed. */
  function PrimaryPlate(serialized: string): (p: Option<string>)
    ensures p.Some? ==> 8 <= |p.value| <= 10 && AllPlateChars(p.value)
    ensures p.Some? <==> exists k | 0 <= k < |RemoveSpaces(serialized)| :: MatchStartsAt(RemoveSpaces(serialized), k)
    ensures p.Some? ==> exists k, n | 0 <= k && MatchAt(RemoveSpaces(serialized), k, n) ::
                          p.value == ToUpper(RemoveSpaces(serialized)[k..k + n])
                          && forall j | 0 <= j < k :: !MatchStartsAt(RemoveSpaces(serialized), j)
  {
    LeftmostPlate(RemoveSpaces(serialized))
  }

  /** The upper-cased leftmost match in text that has already lost its white space. */
  function LeftmostPlate(c: string): (p: Option<string>)
    ensures p.Some? ==> 8 <= |p.value| <= 10 && AllPlateChars(p.value)
    ensures p.Some? <==> exists k | 0 <= k < |c| :: MatchStartsAt(c, k)
    ensures p.Some? ==> exists k, n | 0 <= k && MatchAt(c, k, n) ::
                          p.value == ToUpper(c[k..k + n]) && forall j | 0 <= j < k :: !MatchStartsAt(c, j)
  {
    SearchFindsAnyMatch(c);
    match SearchFrom(c, 0)
    case Some((k, n)) =>
      PatternIsAlnum(c[k..k + n]);
      LeftmostMatchWitness(c, k, n);
      Some(ToUpper(c[k..k + n]))
    case None => None
  }

  /** The match the search returns is a match with none starting before it. */
  lemma LeftmostMatchWitness(c: string, k: nat, n: nat)
    requires SearchFrom(c, 0) == Some((k, n))
    ensures exists k', n' | 0 <= k' && MatchAt(c, k', n') ::
              ToUpper(c[k..k + n]) == ToUpper(c[k'..k' + n']) && forall j | 0 <= j < k' :: !MatchStartsAt(c, j)
  {
    assert MatchAt(c, k, n);
    assert forall j | 0 <= j < k :: !MatchStartsAt(c, j);
  }

  /** The search from the start finds a match exactly when a match starts somewhere. */
  lemma SearchFindsAnyMatch(c: string)
    ensures SearchFrom(c, 0).Some? <==> exists k | 0 <= k < |c| :: MatchStartsAt(c, k)
  {
    var m := SearchFrom(c, 0);
    if m.Some? {
      var k, n := m.value.0, m.value.1;
      assert MatchAt(c, k, n);
      assert MatchStartsAt(c, k);
    }
  }

  // ---------------------------------------------------------------------------
  // Tier 2: depth-first search for a `text` field, then normalisation

  /** The object's own `text` field when it is a string longer than five characters. */
  function OwnText(v: Json): (t: Option<string>)
    ensures t.Some? ==> v.JObj? && |t.value| > 5 && Member(v, "text") == Some(JStr(t.value))
  {
    match Member(v, "text")
    case Some(JStr(t)) => if |t| > 5 then Some(t) else None
    case _ => None
  }

  /** `findText`: null for a value that is not an object or array; otherwise the node's own
      qualifying `text`, or else the first result among its children in key order. */
  function FindText(v: Json): (t: Option<string>)
    ensures t.Some? ==> |t.value| > 5
    ensures !v.JObj? && !v.JArr? ==> t.None?
  {
    match v
    case JObj(ms) => if OwnText(v).Some? then OwnText(v) else FindTextInMembers(ms)
    case JArr(items) => FindTextInItems(items)
    case _ => None
  }

  function FindTextInItems(items: seq<Json>): (t: Option<string>)
    ensures t.Some? ==> |t.value| > 5
  {
    if |items| == 0 then None
    else if FindText(items[0]).Some? then FindText(items[0])
    else FindTextInItems(items[1..])
  }

  function FindTextInMembers(ms: seq<Field>): (t: Option<string>)
    ensures t.Some? ==> |t.value| > 5
  {
    if |ms| == 0 then None
    else if FindText(ms[0].value).Some? then FindText(ms[0].value)
    else FindTextInMembers(ms[1..])
  }

  /** Every qualifying `text` field of the tree, in pre-order: a node's own field
      before those below it, children in key order. */
  function TextCandidates(v: Json): (cs: seq<string>)
    ensures forall i | 0 <= i < |cs| :: |cs[i]| > 5
  {
    match v
    case JObj(ms) => (if OwnText(v).Some? then [OwnText(v).value] else []) + CandidatesInMembers(ms)
    case JArr(items) => CandidatesInItems(items)
    case _ => []
  }

  function CandidatesInItems(items: seq<Json>): (cs: seq<string>)
    ensures forall i | 0 <= i < |cs| :: |cs[i]| > 5
  {
    if |items| == 0 then [] else TextCandidates(items[0]) + CandidatesInItems(items[1..])
  }

  function CandidatesInMembers(ms: seq<Field>): (cs: seq<string>)
    ensures forall i | 0 <= i < |cs| :: |cs[i]| > 5
  {
    if |ms| == 0 then [] else TextCandidates(ms[0].value) + CandidatesInMembers(ms[1..])
  }

  function FirstOf(cs: seq<string>): Option<string>
  {
    if |cs| == 0 then None else Some(cs[0])
  }

  /** The search returns exactly the first qualifying `text` field in pre-order,
      and null only when the tree holds none. */
  lemma {:induction false} FindTextIsFirstCandidate(v: Json)
    ensures FindText(v) == FirstOf(TextCandidates(v))
  {
    match v
    case JObj(ms) => FindTextIsFirstCandidateInMembers(ms);
    case JArr(items) => FindTextIsFirstCandidateInItems(items);
    case _ =>
  }

  lemma {:induction false} FindTextIsFirstCandidateInItems(items: seq<Json>)
    ensures FindTextInItems(items) == FirstOf(CandidatesInItems(items))
  {
    if |items| > 0 {
      FindTextIsFirstCandidate(items[0]);
      FindTextIsFirstCandidateInItems(items[1..]);
    }
  }

  lemma {:induction false} FindTextIsFirstCandidateInMembers(ms: seq<Field>)
    ensures FindTextInMembers(ms) == FirstOf(CandidatesInMembers(ms))
  {
    if |ms| > 0 {
      FindTextIsFirstCandidate(ms[0].value);
      FindTextIsFirstCandidateInMembers(ms[1..]);
    }
  }

  /** `s.replace(/[^A-Z0-9]/gi, '')`: only the ASCII letters and digits, in order. */
  function KeepAlnum(s: string): (r: string)
    ensures |r| <= |s|
    ensures forall i | 0 <= i < |r| :: IsAlnum(r[i])
    ensures (forall i | 0 <= i < |s| :: IsAlnum(s[i])) ==> r == s
  {
    if |s| == 0 then ""
    else if IsAlnum(s[0]) then [s[0]] + KeepAlnum(s[1..])
    else KeepAlnum(s[1..])
  }

  /** Every ASCII letter and digit survives the filter as often as it occurs. */
  lemma {:induction false} KeepAlnumCounts(s: string)
    ensures forall c :: multiset(KeepAlnum(s))[c] == if IsAlnum(c) then multiset(s)[c] else 0
  {
    if |s| > 0 {
      KeepAlnumCounts(s[1..]);
      assert s == [s[0]] + s[1..];
    }
  }

  /** The filter works character by character: what survives of a concatenation is what
      survives of each part, in the same order. */
  lemma {:induction false} KeepAlnumAppend(a: string, b: string)
    ensures KeepAlnum(a + b) == KeepAlnum(a) + KeepAlnum(b)
  {
    if |a| == 0 {
      assert a + b == b;
    } else {
      assert (a + b)[0] == a[0] && (a + b)[1..] == a[1..] + b;
      KeepAlnumAppend(a[1..], b);
    }
  }

  /** `replace(/[^A-Z0-9]/gi, '').toUpperCase()`, the plate normalisation used by both tiers'
      callers: the result holds only upper-case ASCII letters and digits. A single letter or
      digit comes out upper-cased and any other character is dropped. */
  function NormalizePlate(s: string): (r: string)
    ensures |r| <= |s|
    ensures AllPlateChars(r)
    ensures |s| == 1 ==> r == if IsAlnum(s[0]) then [UpperChar(s[0])] else ""
  {
    ToUpper(KeepAlnum(s))
  }

  /** Normalisation works character by character, so with the single-character case it is
      exactly the input's letters and digits, upper-cased, in their original order. */
  lemma NormalizeAppend(a: string, b: string)
    ensures NormalizePlate(a + b) == NormalizePlate(a) + NormalizePlate(b)
  {
    KeepAlnumAppend(a, b);
    ToUpperAppend(KeepAlnum(a), KeepAlnum(b));
  }

  /** Normalisation leaves exactly the normalised strings unchanged, so applying it twice
      is the same as applying it once. */
  lemma NormalizeFixesExactlyPlateText(s: string)
    ensures NormalizePlate(s) == s <==> AllPlateChars(s)
    ensures NormalizePlate(NormalizePlate(s)) == NormalizePlate(s)
  {
    if AllPlateChars(s) {
      NormalizeKeepsPlateText(s);
    }
    NormalizeKeepsPlateText(NormalizePlate(s));
  }

  lemma NormalizeKeepsPlateText(s: string)
    requires AllPlateChars(s)
    ensures NormalizePlate(s) == s
  {
    assert forall i | 0 <= i < |s| :: IsAlnum(s[i]);
    assert KeepAlnum(s) == s;
    assert forall i | 0 <= i < |s| :: UpperChar(s[i]) == s[i];
  }

  /** Tier 2: the normalised first `text` field, kept only when 7 to 11 characters remain. */
  function FallbackPlate(body: Json): (p: Option<string>)
    ensures p.Some? ==> 7 <= |p.value| <= 11 && AllPlateChars(p.value)
    ensures p.Some? ==> FindText(body).Some? && p.value == NormalizePlate(FindText(body).value)
    ensures FindText(body).Some? && 7 <= |NormalizePlate(FindText(body).value)| <= 11
            ==> p == Some(NormalizePlate(FindText(body).value))
  {
    match FindText(body)
    case Some(t) =>
      var c := NormalizePlate(t);
      if 7 <= |c| <= 11 then Some(c) else None
    case None => None
  }

  /** The plate after the ANPR step: null unless the service answered successfully; then tier 1,
      and tier 2 only when tier 1 found nothing. Either way the plate is normalised. */
  function ReadPlate(robo: RoboflowOutcome): (plate: Option<string>)
    ensures plate.Some? ==> robo.RoboOk?
    ensures plate.Some? ==> 7 <= |plate.value| <= 11 && AllPlateChars(plate.value)
    ensures robo.RoboOk? && PrimaryPlate(robo.serialized).Some? ==> plate == PrimaryPlate(robo.serialized)
    ensures robo.RoboOk? && PrimaryPlate(robo.serialized).None? ==> plate == FallbackPlate(robo.body)
  {
    match robo
    case RoboOk(body, serialized) =>
      if PrimaryPlate(serialized).Some? then PrimaryPlate(serialized) else FallbackPlate(body)
    case _ => None
  }
}

=== FILE: scoring.dfy ===
/** Step 5 of the analysis: the validity and priority scores computed from the vision model's
    per-violation flags, weighted by severity and scaled by the authenticity score. */
module Scoring {
  import opened Json
  import opened Classifier

  /** The severity weight of each violation kind, in the order the scoring loop visits them. */
  const Weights: seq<(string, real)> := [
    ("no_helmet", 0.6),
    ("signal_jumping", 0.9),
    ("wrong_side_driving", 1.0),
    ("zebra_crossing_violation", 0.4),
    ("illegal_parking", 0.3)
  ]

  /** The fixed priority baseline used when the classifier step fails. */
  const FallbackPriorityFactor: real := 0.2

  function Min(a: real, b: real): real { if a <= b then a else b }

  /** `parseFloat(x.toFixed(2))` on exact values: the nearest hundredth, a tie going away from zero. */
  function Round2(x: real): (r: real)
  {
    if x < 0.0 then -RoundUp2(-x) else RoundUp2(x)
  }

  function RoundUp2(x: real): real
  {
    (x * 100.0 + 0.5).Floor as real / 100.0
  }

  /** Rounding moves a value by at most half a hundredth and keeps [0,1]. */
  lemma Round2Properties(x: real)
    requires 0.0 <= x
    ensures 0.0 <= Round2(x) && x - 0.005 <= Round2(x) <= x + 0.005
    ensures x <= 1.0 ==> Round2(x) <= 1.0
  {
    var f := (x * 100.0 + 0.5).Floor;
    assert f as real <= x * 100.0 + 0.5 < f as real + 1.0;
    if x <= 1.0 {
      assert (x * 100.0 + 0.5) < 101.0;
      assert f <= 100;
    }
  }

  lemma Round2Monotone(x: real, y: real)
    requires 0.0 <= x <= y
    ensures Round2(x) <= Round2(y)
  {
    assert (x * 100.0 + 0.5).Floor <= (y * 100.0 + 0.5).Floor;
  }

  /** `extracted_data[key] && extracted_data[key].detected === true`. */
  predicate Detected(data: Json, key: string)
  {
    match Member(data, key)
    case Some(flag) => Member(flag, "detected") == Some(JBool(true))
    case None => false
  }

  /** `extracted_data[key].confidence || 0` for a numeric or falsy confidence. */
  function Confidence(data: Json, key: string): real
  {
    match Member(data, key)
    case Some(flag) =>
      (match Member(flag, "confidence")
       case Some(JNum(x)) => x
       case _ => 0.0)
    case None => 0.0
  }

  /** `highestConfidence` after the loop has visited the first `n` kinds. */
  function HighestUpTo(data: Json, n: nat): real
    requires n <= |Weights|
  {
    if n == 0 then 0.0
    else
      var h := HighestUpTo(data, n - 1);
      var key := Weights[n - 1].0;
      if Detected(data, key) && Confidence(data, key) > h then Confidence(data, key) else h
  }

  /** `rawPriority` after the loop has visited the first `n` kinds. */
  function RawUpTo(data: Json, n: nat): real
    requires n <= |Weights|
  {
    if n == 0 then 0.0
    else
      var key := Weights[n - 1].0;
      RawUpTo(data, n - 1) + (if Detected(data, key) then Weighted(Weights[n - 1].1, Confidence(data, key)) else 0.0)
  }

  /** One kind's contribution to the raw priority: its severity weight times its confidence. */
  function Weighted(weight: real, confidence: real): real
  {
    weight * confidence
  }

  /** The validity score of a parsed reply. */
  function Validity(data: Json): real
  {
    var h := HighestUpTo(data, |Weights|);
    if h > 0.0 then h else 0.0
  }

  /** The priority score of a parsed reply under a given authenticity score. */
  function Priority(data: Json, authenticity: real): real
  {
    Scale(RawUpTo(data, |Weights|), authenticity)
  }

  /** `parseFloat((Math.min(1.0, rawPriority) * authenticity_score).toFixed(2))`. */
  function Scale(raw: real, authenticity: real): real
  {
    Round2(Min(1.0, raw) * authenticity)
  }

  /** The priority score when the classifier step fails. */
  function FallbackPriority(authenticity: real): real
  {
    Round2(FallbackPriorityFactor * authenticity)
  }

  /** The failure baseline stays in [0, 0.2] and equals 0.2 for a genuine picture. */
  lemma FallbackPriorityBounds(authenticity: real)
    requires 0.0 <= authenticity <= 1.0
    ensures 0.0 <= FallbackPriority(authenticity) <= FallbackPriorityFactor
    ensures authenticity == 1.0 ==> FallbackPriority(authenticity) == FallbackPriorityFactor
  {
    Round2Properties(FallbackPriorityFactor * authenticity);
    Round2Monotone(FallbackPriorityFactor * authenticity, FallbackPriorityFactor);
    assert (FallbackPriorityFactor * 100.0 + 0.5).Floor == 20;
  }

  /** The failure baseline shrinks with the authenticity score. */
  lemma FallbackPriorityMonotone(a: real, b: real)
    requires 0.0 <= a <= b
    ensures FallbackPriority(a) <= FallbackPriority(b)
  {
    Round2Monotone(FallbackPriorityFactor * a, FallbackPriorityFactor * b);
  }

  /** The failure baseline is nonzero exactly when the authenticity score reaches 0.025; below
      that, 0.2 times the score rounds to 0, the priority of a reply that flags nothing. */
  lemma FallbackPriorityNonzero(authenticity: real)
    requires 0.0 <= authenticity
    ensures FallbackPriority(authenticity) > 0.0 <==> authenticity >= 0.025
  {
    var x := FallbackPriorityFactor * authenticity;
    var f := (x * 100.0 + 0.5).Floor;
    assert f as real <= x * 100.0 + 0.5 < f as real + 1.0;
    assert FallbackPriority(authenticity) == f as real / 100.0;
    if authenticity >= 0.025 {
      assert x * 100.0 + 0.5 >= 1.0;
      assert f >= 1;
    } else {
      assert x * 100.0 + 0.5 < 1.0;
      assert f <= 0;
    }
  }

  /** The highest confidence over the first `n` kinds is at least every detected confidence among
      them, and is either 0 or one of those confidences. */
  lemma {:induction false} HighestIsMaximum(data: Json, n: nat)
    requires n <= |Weights|
    ensures HighestUpTo(data, n) >= 0.0
    ensures forall k | 0 <= k < n :: Detected(data, Weights[k].0) ==> Confidence(data, Weights[k].0) <= HighestUpTo(data, n)
    ensures HighestUpTo(data, n) == 0.0
            || exists k | 0 <= k < n :: Detected(data, Weights[k].0) && Confidence(data, Weights[k].0) == HighestUpTo(data, n)
  {
    if n > 0 {
      HighestIsMaximum(data, n - 1);
    }
  }

  /** Validity is the maximum confidence among the detected kinds, and 0 when none is detected. */
  lemma ValidityIsMaximum(data: Json)
    ensures forall k | 0 <= k < |Weights| :: Detected(data, Weights[k].0) ==> Confidence(data, Weights[k].0) <= Validity(data)
    ensures Validity(data) == 0.0
            || exists k | 0 <= k < |Weights| :: Detected(data, Weights[k].0) && Confidence(data, Weights[k].0) == Validity(data)
    ensures (forall k | 0 <= k < |Weights| :: !Detected(data, Weights[k].0)) ==> Validity(data) == 0.0
  {
    HighestIsMaximum(data, |Weights|);
  }

  /** Every detected kind reports a confidence in [0,1], as the classifier is asked to. */
  predicate ConfidencesInUnit(data: Json)
  {
    forall k | 0 <= k < |Weights| :: Detected(data, Weights[k].0) ==> 0.0 <= Confidence(data, Weights[k].0) <= 1.0
  }

  lemma {:induction false} RawIsNonNegative(data: Json, n: nat)
    requires n <= |Weights| && ConfidencesInUnit(data)
    ensures RawUpTo(data, n) >= 0.0
  {
    if n > 0 {
      RawIsNonNegative(data, n - 1);
      var key := Weights[n - 1].0;
      if Detected(data, key) {
        assert 0.0 <= Confidence(data, key);
        assert Weights[n - 1].1 >= 0.0;
      }
    }
  }

  /** Unfolds `Scale` in a separate proof, so that callers reason about the product without the
      rounding's definition in view. It states nothing new; it exists only to keep the proof of
      `ScaleMonotone` small. */
  lemma ScaleUnfold(raw: real, authenticity: real)
    ensures Scale(raw, authenticity) == Round2(Min(1.0, raw) * authenticity)
  {
  }

  lemma RoundBelow(y: real, a: real)
    requires 0.0 <= y <= a <= 1.0
    ensures 0.0 <= Round2(y) <= 1.0 && Round2(y) <= a + 0.005
  {
    Round2Properties(y);
  }

  lemma ProductBelow(m: real, a: real)
    requires 0.0 <= m <= 1.0 && 0.0 <= a
    ensures 0.0 <= m * a <= a
  {
    assert a - m * a == (1.0 - m) * a;
  }

  lemma RoundedProductMonotone(m: real, a1: real, a2: real)
    requires 0.0 <= m && 0.0 <= a1 <= a2
    ensures Round2(m * a1) <= Round2(m * a2)
  {
    assert 0.0 <= m * a1 <= m * a2 by {
      assert m * a2 - m * a1 == m * (a2 - a1);
    }
    Round2Monotone(m * a1, m * a2);
  }

  /** Scaling a non-negative raw priority by an authenticity score in [0,1] lands in [0,1]
      and exceeds the authenticity score by at most the rounding step. */
  lemma ScaleInUnit(raw: real, authenticity: real)
    requires 0.0 <= raw && 0.0 <= authenticity <= 1.0
    ensures 0.0 <= Scale(raw, authenticity) <= 1.0
    ensures Scale(raw, authenticity) <= authenticity + 0.005
  {
    var m := Min(1.0, raw);
    ProductBelow(m, authenticity);
    RoundBelow(m * authenticity, authenticity);
  }

  /** For a fixed raw priority, a lower authenticity score never gives a higher priority. */
  lemma ScaleMonotone(raw: real, a1: real, a2: real)
    requires 0.0 <= raw && 0.0 <= a1 <= a2
    ensures Scale(raw, a1) <= Scale(raw, a2)
  {
    ScaleUnfold(raw, a1);
    ScaleUnfold(raw, a2);
    RoundedProductMonotone(Min(1.0, raw), a1, a2);
  }

  /** With confidences and authenticity in [0,1], both scores lie in [0,1] and priority never
      exceeds the authenticity score by more than the rounding step. */
  lemma ScoresInUnit(data: Json, authenticity: real)
    requires ConfidencesInUnit(data) && 0.0 <= authenticity <= 1.0
    ensures 0.0 <= Validity(data) <= 1.0
    ensures 0.0 <= Priority(data, authenticity) <= 1.0
    ensures Priority(data, authenticity) <= authenticity + 0.005
  {
    ValidityIsMaximum(data);
    RawIsNonNegative(data, |Weights|);
    ScaleInUnit(RawUpTo(data, |Weights|), authenticity);
  }

  /** A less authentic picture never ranks higher: priority is monotone in the authenticity score. */
  lemma PriorityMonotoneInAuthenticity(data: Json, a1: real, a2: real)
    requires ConfidencesInUnit(data) && 0.0 <= a1 <= a2
    ensures Priority(data, a1) <= Priority(data, a2)
  {
    RawIsNonNegative(data, |Weights|);
    ScaleMonotone(RawUpTo(data, |Weights|), a1, a2);
  }

  /** The `forEach` loop over the weight table: `highestConfidence` and `rawPriority` are
      accumulated kind by kind, then validity and priority are derived from them. */
  method ScoreSignals(data: Json, authenticity: real) returns (validity: real, priority: real)
    ensures validity == Validity(data) && priority == Priority(data, authenticity)
  {
    var highestConfidence := 0.0;
    var rawPriority := 0.0;
    for i := 0 to |Weights|
      invariant highestConfidence == HighestUpTo(data, i)
      invariant rawPriority == RawUpTo(data, i)
    {
      var (key, weight) := Weights[i];
      if Detected(data, key) {
        var conf := Confidence(data, key);
        if conf > highestConfidence {
          highestConfidence := conf;
        }
        rawPriority := rawPriority + Weighted(weight, conf);
      }
    }
    validity := if highestConfidence > 0.0 then highestConfidence else 0.0;
    priority := Scale(rawPriority, authenticity);
  }

  /** A reply flagging wrong-side driving at 0.8 and a missing helmet at 0.5, every other kind
      clear. */
  function TwoViolations(): Json
  {
    JObj([
      Field("signal_jumping", Flag(false, 0.0)),
      Field("no_helmet", Flag(true, 0.5)),
      Field("wrong_side_driving", Flag(true, 0.8)),
      Field("zebra_crossing_violation", Flag(false, 0.0)),
      Field("illegal_parking", Flag(false, 0.0))
    ])
  }

  lemma FlagReads(data: Json, key: string, detected: bool, confidence: real)
    requires Member(data, key) == Some(Flag(detected, confidence))
    ensures Detected(data, key) == detected
    ensures Confidence(data, key) == confidence
  {
    var ms := Flag(detected, confidence).members;
    assert "detected" != "confidence";
    assert Lookup(ms, "detected") == Some(JBool(detected));
    assert Lookup(ms, "confidence") == Some(JNum(confidence));
  }

  lemma TwoViolationsFlags()
    ensures Detected(TwoViolations(), Weights[0].0) && Confidence(TwoViolations(), Weights[0].0) == 0.5
    ensures !Detected(TwoViolations(), Weights[1].0)
    ensures Detected(TwoViolations(), Weights[2].0) && Confidence(TwoViolations(), Weights[2].0) == 0.8
    ensures !Detected(TwoViolations(), Weights[3].0)
    ensures !Detected(TwoViolations(), Weights[4].0)
  {
    var d := TwoViolations();
    var ms := d.members;
    assert Weights[0].0 == "no_helmet" && Weights[1].0 == "signal_jumping";
    assert Weights[2].0 == "wrong_side_driving" && Weights[3].0 == "zebra_crossing_violation";
    assert Weights[4].0 == "illegal_parking";
    assert Lookup(ms, "signal_jumping") == Some(Flag(false, 0.0));
    FlagReads(d, "signal_jumping", false, 0.0);
    assert Lookup(ms, "no_helmet") == Some(Flag(true, 0.5));
    FlagReads(d, "no_helmet", true, 0.5);
    assert Lookup(ms, "wrong_side_driving") == Some(Flag(true, 0.8));
    FlagReads(d, "wrong_side_driving", true, 0.8);
    assert Lookup(ms, "zebra_crossing_violation") == Some(Flag(false, 0.0));
    FlagReads(d, "zebra_crossing_violation", false, 0.0);
    assert Lookup(ms, "illegal_parking") == Some(Flag(false, 0.0));
    FlagReads(d, "illegal_parking", false, 0.0);
  }

  lemma TwoViolationsSums()
    ensures HighestUpTo(TwoViolations(), |Weights|) == 0.8
    ensures RawUpTo(TwoViolations(), |Weights|) == 1.1
  {
    var d := TwoViolations();
    TwoViolationsFlags();
    assert Weights[0].1 == 0.6 && Weights[2].1 == 1.0;
    assert HighestUpTo(d, 1) == 0.5 && RawUpTo(d, 1) == 0.3;
    assert HighestUpTo(d, 2) == 0.5 && RawUpTo(d, 2) == 0.3;
    assert HighestUpTo(d, 3) == 0.8 && RawUpTo(d, 3) == 1.1;
    assert HighestUpTo(d, 4) == 0.8 && RawUpTo(d, 4) == 1.1;
  }

  /** Validity is the strongest confidence, 0.8; the raw priority 1.0 * 0.8 + 0.6 * 0.5 = 1.1 is
      capped at 1, so a genuine picture scores 1.0 and a suspected fake (authenticity 0.3) is
      suppressed to 0.3 rather than hidden. */
  lemma TwoViolationsScores()
    ensures Validity(TwoViolations()) == 0.8
    ensures Priority(TwoViolations(), 1.0) == 1.0
    ensures Priority(TwoViolations(), 0.3) == 0.3
  {
    TwoViolationsSums();
    ScaleUnfold(1.1, 1.0);
    ScaleUnfold(1.1, 0.3);
    assert (1.0 * 100.0 + 0.5).Floor == 100;
    assert (0.3 * 100.0 + 0.5).Floor == 30;
  }
}

=== FILE: text.dfy ===
/** The string primitives of the JavaScript runtime the analysis relies on:
    the `\s` character class, `trim`, and ASCII case mapping. */
module Text {

  /** The characters JavaScript's `\s` and `String.prototype.trim` treat as white space. */
  predicate IsSpace(c: char)
  {
    c == ' ' || c == '\t' || c == '\n' || c == '\U{B}' || c == '\U{C}' || c == '\r'
    || c == '\U{A0}' || c == '\U{1680}' || ('\U{2000}' <= c <= '\U{200A}')
    || c == '\U{2028}' || c == '\U{2029}' || c == '\U{202F}' || c == '\U{205F}'
    || c == '\U{3000}' || c == '\U{FEFF}'
  }

  predicate AllSpace(s: string)
  {
    forall i | 0 <= i < |s| :: IsSpace(s[i])
  }

  predicate IsUpperLetter(c: char) { 'A' <= c <= 'Z' }
  predicate IsLowerLetter(c: char) { 'a' <= c <= 'z' }
  predicate IsDigit(c: char) { '0' <= c <= '9' }

  /** What `[A-Z]` matches under the `i` flag: an ASCII letter of either case. */
  predicate IsLetter(c: char) { IsUpperLetter(c) || IsLowerLetter(c) }

  /** What `[A-Z0-9]` matches under the `i` flag. */
  predicate IsAlnum(c: char) { IsLetter(c) || IsDigit(c) }

  /** A character of a normalised plate: an upper-case ASCII letter or a digit. */
  predicate IsPlateChar(c: char) { IsUpperLetter(c) || IsDigit(c) }

  predicate AllPlateChars(s: string)
  {
    forall i | 0 <= i < |s| :: IsPlateChar(s[i])
  }

  function UpperChar(c: char): (u: char)
    ensures IsLowerLetter(c) ==> IsUpperLetter(u)
    ensures !IsLowerLetter(c) ==> u == c
  {
    if IsLowerLetter(c) then (c as int - 'a' as int + 'A' as int) as char else c
  }

  /** `toUpperCase` restricted to ASCII: lower-case ASCII letters become upper case. */
  function ToUpper(s: string): (r: string)
    ensures |r| == |s|
    ensures forall i | 0 <= i < |s| :: r[i] == UpperChar(s[i])
  {
    seq(|s|, i requires 0 <= i < |s| => UpperChar(s[i]))
  }

  /** Upper-casing works character by character, so it distributes over concatenation. */
  lemma ToUpperAppend(a: string, b: string)
    ensures ToUpper(a + b) == ToUpper(a) + ToUpper(b)
  {
    var l, r := ToUpper(a + b), ToUpper(a) + ToUpper(b);
    forall i | 0 <= i < |l|
      ensures l[i] == r[i]
    {
      if i < |a| {
        assert (a + b)[i] == a[i];
      } else {
        assert (a + b)[i] == b[i - |a|];
      }
    }
  }

  /** `s.replace(/\s+/g, '')`: every white-space character removed, the rest kept in order. */
  function RemoveSpaces(s: string): (r: string)
    ensures |r| <= |s|
    ensures forall i | 0 <= i < |r| :: !IsSpace(r[i])
    ensures AllSpace(s) <==> r == ""
  {
    if |s| == 0 then ""
    else if IsSpace(s[0]) then RemoveSpaces(s[1..])
    else [s[0]] + RemoveSpaces(s[1..])
  }

  /** Every character other than white space survives the removal as often as it occurs. */
  lemma {:induction false} RemoveSpacesCounts(s: string)
    ensures forall c :: multiset(RemoveSpaces(s))[c] == if IsSpace(c) then 0 else multiset(s)[c]
  {
    if |s| > 0 {
      RemoveSpacesCounts(s[1..]);
      assert s == [s[0]] + s[1..];
    }
  }

  /** The removal works character by character: what survives of a concatenation is what
      survives of each part, in the same order. */
  lemma {:induction false} RemoveSpacesAppend(a: string, b: string)
    ensures RemoveSpaces(a + b) == RemoveSpaces(a) + RemoveSpaces(b)
  {
    if |a| == 0 {
      assert a + b == b;
    } else {
      RemoveSpacesAppend(a[1..], b);
      RemoveSpacesStep(a, b);
    }
  }

  lemma RemoveSpacesStep(a: string, b: string)
    requires |a| > 0
    requires RemoveSpaces(a[1..] + b) == RemoveSpaces(a[1..]) + RemoveSpaces(b)
    ensures RemoveSpaces(a + b) == RemoveSpaces(a) + RemoveSpaces(b)
  {
    DropFirst(a, b);
    var x, y := RemoveSpaces(a[1..]), RemoveSpaces(b);
    if IsSpace(a[0]) {
      assert RemoveSpaces(a + b) == RemoveSpaces(a[1..] + b);
    } else {
      assert RemoveSpaces(a + b) == [a[0]] + RemoveSpaces(a[1..] + b);
      assert [a[0]] + (x + y) == ([a[0]] + x) + y;
    }
  }

  lemma DropFirst(x: string, y: string)
    requires |x| > 0
    ensures (x + y)[0] == x[0] && (x + y)[1..] == x[1..] + y && [x[0]] + x[1..] == x
  {
  }

  function TrimStart(s: string): (r: string)
    ensures |r| <= |s| && r == s[|s| - |r|..]
    ensures forall i | 0 <= i < |s| - |r| :: IsSpace(s[i])
    ensures r == "" || !IsSpace(r[0])
  {
    if |s| > 0 && IsSpace(s[0]) then TrimStart(s[1..]) else s
  }

  function TrimEnd(s: string): (r: string)
    ensures |r| <= |s| && r == s[..|r|]
    ensures forall i | |r| <= i < |s| :: IsSpace(s[i])
    ensures r == "" || !IsSpace(r[|r| - 1])
  {
    if |s| > 0 && IsSpace(s[|s| - 1]) then TrimEnd(s[..|s| - 1]) else s
  }

  /** `String.prototype.trim`: the input less its leading and trailing white space. */
  function Trim(s: string): (r: string)
    ensures r == "" || (!IsSpace(r[0]) && !IsSpace(r[|r| - 1]))
    ensures exists a, b | 0 <= a <= b <= |s| :: r == s[a..b] && AllSpace(s[..a]) && AllSpace(s[b..])
  {
    InfixBetweenSpace(s, TrimStart(s), TrimEnd(TrimStart(s)));
    TrimEnd(TrimStart(s))
  }

  /** `t` is `s` less a white-space prefix and `r` is `t` less a white-space suffix. */
  lemma InfixBetweenSpace(s: string, t: string, r: string)
    requires |t| <= |s| && t == s[|s| - |t|..] && (forall i | 0 <= i < |s| - |t| :: IsSpace(s[i]))
    requires |r| <= |t| && r == t[..|r|] && (forall i | |r| <= i < |t| :: IsSpace(t[i]))
    ensures exists a, b | 0 <= a <= b <= |s| :: r == s[a..b] && AllSpace(s[..a]) && AllSpace(s[b..])
  {
    var a := |s| - |t|;
    var b := a + |r|;
    SpaceBefore(s, a);
    SpaceAfter(t, |r|);
    SlicesOfSuffix(s, a, |r|);
    assert r == s[a..b] && AllSpace(s[..a]) && AllSpace(s[b..]);
  }

  lemma SpaceBefore(s: string, a: nat)
    requires a <= |s| && forall i | 0 <= i < a :: IsSpace(s[i])
    ensures AllSpace(s[..a])
  {
    assert forall i | 0 <= i < a :: s[..a][i] == s[i];
  }

  lemma SpaceAfter(t: string, n: nat)
    requires n <= |t| && forall i | n <= i < |t| :: IsSpace(t[i])
    ensures AllSpace(t[n..])
  {
    assert forall i | 0 <= i < |t| - n :: t[n..][i] == t[n + i];
  }

  lemma SlicesOfSuffix(s: string, a: nat, n: nat)
    requires a + n <= |s|
    ensures s[a..][..n] == s[a..a + n] && s[a..][n..] == s[a + n..]
  {
  }

  lemma {:induction false} TrimStartSkipsSpace(w: string, x: string)
    requires AllSpace(w)
    ensures TrimStart(w + x) == TrimStart(x)
  {
    if |w| > 0 {
      assert (w + x)[1..] == w[1..] + x;
      TrimStartSkipsSpace(w[1..], x);
    } else {
      assert w + x == x;
    }
  }

  lemma {:induction false} TrimEndSkipsSpace(x: string, w: string)
    requires AllSpace(w)
    ensures TrimEnd(x + w) == TrimEnd(x)
  {
    if |w| > 0 {
      assert (x + w)[..|x + w| - 1] == x + w[..|w| - 1];
      TrimEndSkipsSpace(x, w[..|w| - 1]);
    } else {
      assert x + w == x;
    }
  }

  lemma {:induction false} TrimStartAppend(x: string, y: string)
    ensures TrimStart(x + y) == if AllSpace(x) then TrimStart(y) else TrimStart(x) + y
  {
    if |x| == 0 {
      assert x + y == y;
    } else if IsSpace(x[0]) {
      assert (x + y)[1..] == x[1..] + y;
      TrimStartAppend(x[1..], y);
    }
  }

  /** White space around a payload never survives `trim`. */
  lemma TrimIgnoresSurroundingSpace(w1: string, p: string, w2: string)
    requires AllSpace(w1) && AllSpace(w2)
    ensures Trim(w1 + p + w2) == Trim(p)
  {
    assert w1 + p + w2 == w1 + (p + w2);
    TrimStartSkipsSpace(w1, p + w2);
    TrimStartAppend(p, w2);
    if AllSpace(p) {
      assert AllSpace(p + w2);
      TrimStartAppend(p + w2, "");
      TrimStartAppend(p, "");
      assert p + w2 + "" == p + w2;
      assert p + "" == p;
    } else {
      TrimEndSkipsSpace(TrimStart(p), w2);
    }
  }
}
